=== FILE: README.md ===
# Purolator transit-time scripts, modelled in Dafny

The repository has two browser-scraping scripts for the Purolator carrier.

- `check_tracking.js` reads rows of origin and destination postal codes. For each row it opens the carrier's estimate page and finds the "Purolator Express" estimate. It turns that estimate's date into a count of business days from today. The counts go back into column G ("Delivery Standard") of the same worksheet, and only into cells that are still empty.
- `main.js` reads tracking numbers (PINs). For each PIN it opens the tracker page and takes the latest "Picked up by Purolator" date, or a fallback field. It takes the delivery date, counts the business days between the two, and writes `[PIN, Shipping Date, Delivery Date, Business Days]` rows under a header.

The model keeps the logic that sits between the browser and the spreadsheet. That logic is business-day counting, date-text rewriting, the skip gate, the reverse row scans, per-row outcomes, result accumulation and the "fill only empty cells" merge. The browser and the spreadsheet files are left out. Each script's main loop takes what the browser would have shown as a parameter: one page value per input row.

Modules:

- `Optional`: the `Option` type.
- `JsText`: the JavaScript string built-ins the scripts call, with JavaScript semantics. These are `trim` (JavaScript's white-space set), `indexOf`, `substring` (clamping and swapping), `split` on one character, `slice(0, -1)`, `parseInt` (white space, sign, `0x`, longest digit prefix, `NaN`) and number-to-text.
- `Calendar`: proleptic Gregorian dates as day numbers, with day 0 = 1 January 1970. `Weekday(n) = (n + 4) % 7` agrees with `getDay()`: 0 is Sunday, 6 is Saturday.
- `BusinessDays`: `getBusinessDays` on day numbers, in two forms: a recursive count and the script's `while` loop with an invariant. Both are proved equal to the size of the set of Monday-to-Friday days in `[start, end)`.
- `DateText`: the month table and `getAbbreviatedMonth`. It also has the engine's reading of the "year month day" texts the scripts build. `GetBusinessDays` works on texts and returns 0 when either text is not a date, because comparing with an invalid `Date` is always false.
- `Scan`: the last-to-first search that both scripts use.
- `Cells`: sheet cells as `map<(int, int), Value>`, JavaScript truthiness, and the merge that fills only missing or falsy cells.
- `CheckTracking`: `check_tracking.js`, covering the skip gate, the estimate page, the date-portion parse, per-row outcomes, the row-keyed results, column G and the write-back.
- `MainScript`: `main.js`, covering the pick-up scan and fallback, `formatDateString`, per-PIN outcomes, the pushed rows and the output sheet.

Some exceptions in the scripts are thrown outside every `try`. The model treats such an exception as the end of the run, and nothing is written (`Crashed` outcomes, `Aborted` runs). These throws are:

- an estimate month that is not in the table (`monthNames[-1]` is `undefined`, and `getAbbreviatedMonth` fails on it);
- a failed final "modify" click (check_tracking.js:217);
- a tracker date of fewer than three words (`parts[2].slice` in main.js);
- the final `print` call (main.js:143). Node has no global `print`, so it throws a `ReferenceError` after `writeFile` (main.js:137) has started its asynchronous write. The async function's promise is rejected and nothing handles it. Node then ends the process, possibly before the file is written. The model stops at handing the sheet to `writeFile` and does not model this last throw.

Three points of the control flow matter for the model:

- The skip gate checks for a missing postal code first, then a business-days value of "1", then an existing delivery standard (check_tracking.js:92-106).
- The throws listed above end the run. Every other failing step the model covers is caught, and the loop moves on to the next row. Two more throws sit outside every `try` but are not modelled: the navigation at main.js:76 and the cell lookups at main.js:96 and main.js:100 (see "## Left out").
- A checkpoint every 100 rows exists only as a comment (check_tracking.js:67), so the model has no checkpoint.

The estimate date always takes today's year. `CheckTracking.EarlierMonthCountsZero` shows the consequence: a January estimate computed in December counts 0 business days.

## Model

| member | source | states |
|---|---|---|
| Calendar.NextDayNumber | check_tracking.js:45 | `setDate(getDate() + 1)` moves to the next calendar day, across month and year ends, and that day's number is exactly one more, so the loop walks consecutive day numbers |
| Calendar.DayNumberOrder | check_tracking.js:41 | for real dates, `startDate < endDate` on day numbers holds exactly when the first date is earlier in the calendar, and equal numbers mean equal dates |
| Calendar.DayNumber | check_tracking.js:36-37 | a valid date's day number lies inside its own year, between that year's 1 January and the next one's; a day past the month's end is not rejected, and `Calendar.RollOver` states how it counts on into the next month |
| Calendar.RollOver | check_tracking.js:36-37 | a day k past the end of a month has the day number of day k of the next month, and past 31 December that of day k of January of the next year, so a text such as "2024 Feb. 30" reads as 1 March 2024 |
| Calendar.Weekday | check_tracking.js:42 | `getDay()` is one of 0 to 6 |
| BusinessDays.WeekdayShift | check_tracking.js:42-45 | moving k days on, for k from 0 to 6, moves the weekday k places round the week |
| Calendar.KnownDates | check_tracking.js:42 | 1 January 1970 is day 0, and 1 April 2024 is a Monday (`getDay()` = 1) |
| BusinessDays.CountBusinessDays | check_tracking.js:40-48 | the count is 0 whenever start >= end, start = end included, and never exceeds `end - start` |
| BusinessDays.CountIsSetSize | check_tracking.js:31-49 | the count equals the number of days in `[start, end)` whose weekday is neither 0 nor 6 |
| BusinessDays.CountBusinessDaysLoop | main.js:28-36 | the `while (startDate < endDate)` loop returns the number of Monday-to-Friday days in `[start, end)`, and 0 when start >= end |
| BusinessDays.CountSplit | check_tracking.js:41-46 | the counts over two adjacent intervals add up to the count over their union |
| BusinessDays.WeekHasFiveBusinessDays | check_tracking.js:33 | any seven consecutive days hold exactly five days outside the weekend list `[0, 6]` |
| BusinessDays.WholeWeeks | check_tracking.js:31-49 | k whole weeks count 5k, so Monday to the next Monday counts 5 |
| BusinessDays.FirstWeekOfApril2024 | main.js:19-37 | Monday 1 April 2024 to Friday 5 April 2024 counts 4 (Monday to Thursday) |
| DateText.AbbreviatedMonth | check_tracking.js:27-29 | the result ends in "."; for a name of at least 3 characters it has length 4 and keeps the first three characters; a shorter name is kept whole |
| DateText.AbbreviatedMonthNames | check_tracking.js:192-199 | every one of the twelve names abbreviates to its first three letters and a period |
| DateText.MonthIndex | check_tracking.js:205 | `monthNames.indexOf` gives -1 exactly when the word is not one of the twelve names, and otherwise a position holding that word |
| DateText.MonthOfNamingWord | check_tracking.js:36-37 | a month word is read as month m exactly when its first three letters name m; the twelve three-letter keys are distinct |
| DateText.MonthOfWord | check_tracking.js:36-37 | a word shorter than three letters names no month; any month read is 1 to 12 (which month: `MonthOfNamingWord`) |
| DateText.ReadDate | check_tracking.js:36-37 | `new Date(text)` on the scripts' texts yields a date only for a text of exactly three space-separated words whose middle word's first three letters name the month; the month is 1 to 12, the day 1 to 31 and the year non-negative; anything else is an invalid date |
| DateText.ReadFormattedDate | check_tracking.js:202 | the text "year month-word day" is read back as that date when the word names the month and the day is 1 to 31 |
| DateText.UnreadableDay | check_tracking.js:207-210 | a day that `parseInt` could not read (`NaN`), or one outside 1 to 31, makes the built text an invalid date |
| DateText.ReadAbbreviatedDate | check_tracking.js:199-210 | "year Mon. day" built from the table is read as (year, month, day) when the day is 1 to 31, and as an invalid date otherwise |
| DateText.GetBusinessDays | check_tracking.js:31-49 | `getBusinessDays` on texts is 0 when either text is an invalid date, and otherwise the number of business days in the half-open interval between the two dates |
| JsText.Trim | check_tracking.js:166 | the trimmed text is no longer than the input and neither starts nor ends with white space |
| JsText.TrimPadded | main.js:96 | white space around a text whose ends are not white space is removed, and nothing else is |
| JsText.Substring | check_tracking.js:185 | `substring` on arguments inside the text is the slice between them, swapped when the start is past the end; an end of -1 (no "End of day") takes the text up to the start |
| JsText.NumberText | check_tracking.js:202 | a number joined into a text is printed as its shortest decimal numeral, with a "-" for a negative number, and `NaN` is printed as "NaN" |
| JsText.IndexOf | check_tracking.js:185 | -1 exactly when the pattern occurs nowhere; otherwise it occurs at the result and at no earlier position |
| JsText.DropLast | main.js:44 | `slice(0, -1)` drops exactly the last character, and gives "" for "" |
| JsText.Split | check_tracking.js:160 | `split` yields at least one piece and no piece contains the separator |
| JsText.JoinSplit | main.js:41 | joining the pieces of a split with the separator gives back the text |
| JsText.SplitJoin | check_tracking.js:205 | splitting separator-free pieces joined by the separator gives back the pieces |
| JsText.SplitThreeWords | main.js:41-44 | in "a b c…", where a, b and c have no space and whatever follows c starts with a space, the first three split pieces are a, b and c |
| JsText.DecimalRoundTrip | check_tracking.js:202 | the decimal digits printed for a number read back as that number |
| JsText.NumberTextHasNoSpace | check_tracking.js:210 | a number printed into the date text holds no space, and it is all digits exactly when it is a non-negative number (not `NaN`) |
| JsText.UnsignedNumeral | check_tracking.js:207 | the digits of n followed by neither a digit nor "x" are read as n |
| JsText.ParseInt | check_tracking.js:207 | `parseInt` gives `NaN` unless the first non-space character is a digit or a sign; a negative result needs a leading "-"; a text starting (after white space) with a decimal digit not followed by "x" gives a non-negative number |
| JsText.ParseIntOfNumeral | check_tracking.js:207 | `parseInt` of a numeral followed by a non-digit (such as "26," or "26 ") is the numeral's value |
| Scan.LastWhere | check_tracking.js:155-171 | the reverse scan stops at a matching row with no match after it, and finds nothing exactly when no row matches |
| Scan.LastWhereFinds | main.js:93-105 | a matching row with no match after it is the one the reverse scan stops at |
| Cells.Truthy | check_tracking.js:246 | a cell value is falsy exactly when it is "", 0 or false |
| Cells.IsEmptyCell | check_tracking.js:246 | a cell counts as empty exactly when it is missing or holds "", 0 or false |
| Cells.FillFrom | check_tracking.js:243-250 | the row-by-row loop writes each entry only into a missing or falsy cell, adds only cells of the target column, and changes nothing else |
| Cells.MergeColumn | check_tracking.js:243-250 | cell (k, column) becomes entry k when it was missing or falsy and is kept otherwise; every other cell is unchanged |
| Cells.MergeIdempotent | check_tracking.js:243-250 | merging the same column twice gives the same sheet as merging it once |
| Cells.MergeKeepsFilledCells | check_tracking.js:246 | a truthy cell is never overwritten |
| CheckTracking.SkipGate | check_tracking.js:92-106 | a missing postal code skips the row first; then a business-days value of exactly "1"; then a delivery standard that is present and not ""; a row reaches the browser exactly when all three checks fail |
| CheckTracking.ProcessRow | check_tracking.js:92-106 | a row is skipped exactly when the skip gate fires, and with the gate's reason |
| CheckTracking.SkippedRowIgnoresPage | check_tracking.js:92-106 | a skipped row's outcome does not depend on the page or the clock |
| CheckTracking.PageOutcome | check_tracking.js:117-182 | each failed browser step (navigation, form, typing, estimates table) skips the row with its own failure; a table with no "Purolator Express" row fails exactly with that reason; a count is recorded only when the final click succeeds |
| CheckTracking.ExpressRowOutcome | check_tracking.js:165-217 | a missing date cell skips the row; the run crashes exactly when the date cell exists and either the estimate's first word is not a full month name or the final "modify" click fails |
| CheckTracking.EstimateDays | check_tracking.js:185-206 | the estimate throws exactly when the first word of the date portion is not one of the twelve month names |
| CheckTracking.ProcessRowUsesLatestExpressRow | check_tracking.js:155-171 | the outcome is taken from the highest-index row whose service cell's first line is "Purolator Express" |
| CheckTracking.NoExpressRowSkips | check_tracking.js:172-177 | a table with no "Purolator Express" row gives no result for the row |
| CheckTracking.CommaAfterWeekday | check_tracking.js:185 | the first comma of "weekday, rest" is right after the weekday |
| CheckTracking.DatePortion | check_tracking.js:185 | the date portion is no longer than the date text and has no white space at either end (its content: `DatePortionOf`) |
| CheckTracking.DatePortionOf | check_tracking.js:185 | "weekday, portion End of day…" yields the trimmed portion, provided the weekday has no comma and "End of day" does not start earlier |
| CheckTracking.EstimateFromWordsMeaning | check_tracking.js:196-212 | with a full month name first, the count runs from today to (today's year, that month, the day `parseInt` reads from the second word); 0 when that day is not 1 to 31; a throw when the month is unknown |
| CheckTracking.EstimateDaysMeaning | check_tracking.js:185-212 | the same, stated for the whole date text through its date portion |
| CheckTracking.EarlierMonthCountsZero | check_tracking.js:196-212 | an estimate month earlier in the year than today's month gives 0, because today's year is used |
| CheckTracking.CollectResults | check_tracking.js:83-88 | the loop counts every row, skipped ones included, so result key k is input row k; a key exists exactly for rows that computed a count; the first crash ends the run |
| CheckTracking.RunChecks | check_tracking.js:83-225 | the same, with the script's per-row step: `dataObject[k]` is row k's count, and the run aborts at the first crashing row |
| CheckTracking.BuildStandardColumn | check_tracking.js:233-237 | the column is "Delivery Standard" followed by exactly `total` entries; entry k is row k's count, or "" when there is none or it is 0 |
| CheckTracking.WriteBack | check_tracking.js:228-253 | after a crash the sheet is unchanged; otherwise column G rows 0 to total receive the header and the entries only where empty, and every other cell, column G outside those rows included, is unchanged |
| CheckTracking.RunScript | check_tracking.js:83-253 | a count computed for input row k lands in column G of sheet row k when that cell was empty; a filled column-G cell, the header cell included, keeps its value; a crash anywhere leaves the sheet unchanged; every cell outside column G rows 0 to the row count is unchanged |
| MainScript.PickupDateText | main.js:93-105 | the scan returns nothing exactly when no row's trimmed last cell is "Picked up by Purolator"; otherwise it returns the trimmed first cell of the latest such row |
| MainScript.ShippingDateText | main.js:107-109 | the pick-up date is used when it exists and is not ""; otherwise the fallback field is used |
| MainScript.LatestPickupIsShippingDate | main.js:93-109 | the latest pick-up row with a non-empty date is the shipping date text |
| MainScript.FormatDateString | main.js:39-46 | `formatDateString` throws exactly when the text has fewer than three space-separated words |
| MainScript.TrackerDateFormats | main.js:39-46 | "weekday month day," plus the rest is rewritten to "2024 month day": the year is fixed, the first word and everything after the day's last character are dropped |
| MainScript.TrackerDateReads | main.js:114-118 | that rewritten text is read back as the day of 2024 it names |
| MainScript.TrackDates | main.js:114-121 | the row is `[pin, formatted shipping date, formatted delivery date, getBusinessDays(shipping, delivery)]`, or a throw when either text has fewer than three words |
| MainScript.ProcessPin | main.js:78-87 | a PIN adds nothing exactly when its page wait failed |
| MainScript.TrackDatesCounts | main.js:114-121 | two tracker dates give the business days between those two days of 2024 |
| MainScript.PickupToDeliveryExample | main.js:114-121 | picked up "Monday April 1, 2024 09:14" and delivered "Friday April 5, 2024" gives the row `[pin, "2024 April 1", "2024 April 5", 4]` |
| MainScript.TrackedPositions | main.js:62-121 | the tracked input positions are listed in increasing order, each once, exactly the PINs whose outcome is a row |
| MainScript.TrackedRowsInOrder | main.js:62-121 | the j-th pushed row is the row of the j-th tracked PIN, so rows keep input order, there is at most one per PIN, and there are never more rows than PINs |
| MainScript.TrackPins | main.js:62-130 | a failed wait adds nothing and the loop goes on; the first crash aborts the run; otherwise `data` is exactly the tracked rows in input order, no more than the PINs |
| MainScript.RunTracker | main.js:62-130 | the same, with the script's per-PIN step |
| MainScript.OutputSheetShape | main.js:134 | the output sheet has the header row and one row per data row, four cells wide, and nothing else |
| MainScript.OutputSheetHeader | main.js:134 | row 0 is "PIN", "Shipping Date", "Delivery Date", "Business Days" |
| MainScript.OutputSheetRow | main.js:134 | sheet row k + 1 holds data row k: the PIN, both dates and the count |
| MainScript.WrittenSheet | main.js:131-140 | no sheet is handed to `writeFile` after a crash; otherwise the sheet has at most one row per PIN below the header |
| MainScript.TrackAndWrite | main.js:62-140 | a sheet is handed to `writeFile` exactly when no PIN crashed, and it is the header over the tracked rows in input order |

## Left out

- Puppeteer (launch, navigation, selector waits, typing, clicks, `page.evaluate`, closing pages): each page is given as a value per row. Only whether a step succeeded and the texts it yields are kept.
- XLSX reading and writing and the `fs` callback: input rows are given as sequences of records, and sheets are maps of cells. `sheet_to_json` skipping blank rows, the sheet's `!ref` range, and cell types other than text, integer and boolean are not modelled.
- A `getPostalCodes` or `getPinNumbersFromExcel` read failure, which returns an empty list, is not modelled; the loop simply receives no rows.
- OS detection, the browser path and the timeout constants (check_tracking.js:54-81) are configuration, and the model has no clock to time out against.
- Logging, per-iteration timing and the remaining-time estimate (main.js:122-129, 141-142) only print or compute durations, and they use floating point.
- MainScript.TrackAndWrite: gives the sheet handed to `writeFile`. It does not promise that the file is written, because the `print` call at main.js:143 throws outside every `try` and can end the process before the asynchronous write completes.
- MainScript.WrittenSheet: the same as for `TrackAndWrite`; the sheet is the one handed to `writeFile`, and completion of the write is not modelled.
- `new Date(text)`: the model reads only the "year month day" texts the scripts build, as exactly three space-separated words. Other forms the engine might accept are read as invalid dates. Time zones and daylight-saving shifts are not modelled: dates are whole days.
- DateText.ReadDate: the first number of a "year month day" text is always read as the year, whatever its value. The engine's fallback date parser reads a small first number differently. It maps 0 to 49 to 2000 to 2049 and 50 to 99 to 1950 to 1999, and it may take a first number of 31 or less as the day. It also rejects years beyond its range of about ±275760 years. So `ReadDate`, `ReadFormattedDate`, `UnreadableDay` and `ReadAbbreviatedDate` match the engine only for years from 100 up to that bound. The scripts only build such years: today's `getFullYear()` or the literal 2024.
- `new Date()` for today is a parameter: one reading per row, since check_tracking.js:188 reads it inside the loop.
- The unguarded navigation in main.js:76, which throws on a navigation error, is not modelled: a tracker page is either loaded or its wait fails.
- History rows with no `td` cell are not modelled: in main.js the cell lookup would throw, and every modelled row has a first and a last cell.
- A PIN cell that is missing (`row['Tracking #']` undefined) is not modelled: PINs are strings.
- The periodic checkpoint is only a comment in the code (check_tracking.js:67) and is not modelled as behaviour.
- `parseInt` beyond 2^53 loses precision in JavaScript; the model reads exact integers.

=== FILE: businessdays.dfy ===
/** `getBusinessDays` of both scripts on day numbers: the days of the half-open interval
    `[start, end)` that fall on Monday to Friday. */
module BusinessDays {
  import opened Calendar

  /** Not in the script's weekend list `[0, 6]` (Sunday, Saturday). */
  predicate IsBusinessDay(n: int) {
    Weekday(n) != 0 && Weekday(n) != 6
  }

  /** The count, one day at a time from `start`. */
  function CountBusinessDays(start: int, end: int): (r: nat)
    ensures start >= end ==> r == 0
    ensures start < end ==> r <= end - start
    decreases end - start
  {
    if start >= end then 0
    else (if IsBusinessDay(start) then 1 else 0) + CountBusinessDays(start + 1, end)
  }

  /** The independent description: the set of business days in `[start, end)`. */
  ghost function BusinessDaySet(start: int, end: int): set<int> {
    set d | start <= d < end && IsBusinessDay(d)
  }

  /** The count is the size of the set of business days in the interval. */
  lemma {:induction false} CountIsSetSize(start: int, end: int)
    ensures CountBusinessDays(start, end) == |BusinessDaySet(start, end)|
    decreases end - start
  {
    if start >= end {
      assert BusinessDaySet(start, end) == {};
    } else {
      CountIsSetSize(start + 1, end);
      var rest := BusinessDaySet(start + 1, end);
      if IsBusinessDay(start) {
        assert BusinessDaySet(start, end) == {start} + rest;
        assert start !in rest;
      } else {
        assert BusinessDaySet(start, end) == rest;
      }
    }
  }

  /** The script's `while (startDate < endDate)` loop: a cursor walks from `start` to `end`,
      counting the days whose weekday is not Saturday or Sunday. */
  method CountBusinessDaysLoop(start: int, end: int) returns (count: nat)
    ensures count == |BusinessDaySet(start, end)|
    ensures start >= end ==> count == 0
  {
    count := 0;
    var cursor := start;
    while cursor < end
      invariant start <= cursor <= end || cursor == start
      invariant count + CountBusinessDays(cursor, end) == CountBusinessDays(start, end)
      decreases end - cursor
    {
      if IsBusinessDay(cursor) {
        count := count + 1;
      }
      cursor := cursor + 1;
    }
    CountIsSetSize(start, end);
  }

  /** Counting over adjacent intervals adds up. */
  lemma {:induction false} CountSplit(a: int, b: int, c: int)
    requires a <= b <= c
    ensures CountBusinessDays(a, c) == CountBusinessDays(a, b) + CountBusinessDays(b, c)
    decreases b - a
  {
    if a < b {
      CountSplit(a + 1, b, c);
    }
  }

  lemma WeekdayShift(n: int, k: int)
    requires 0 <= k < 7
    ensures Weekday(n + k) == (Weekday(n) + k) % 7
  {
  }

  /** Any seven consecutive days hold exactly five business days. */
  lemma {:induction false} WeekHasFiveBusinessDays(n: int)
    ensures CountBusinessDays(n, n + 7) == 5
  {
    WeekdayShift(n, 0);
    WeekdayShift(n, 1);
    WeekdayShift(n, 2);
    WeekdayShift(n, 3);
    WeekdayShift(n, 4);
    WeekdayShift(n, 5);
    WeekdayShift(n, 6);
    assert CountBusinessDays(n + 7, n + 7) == 0;
    assert CountBusinessDays(n + 6, n + 7) == (if IsBusinessDay(n + 6) then 1 else 0);
    assert CountBusinessDays(n + 5, n + 7) == (if IsBusinessDay(n + 5) then 1 else 0) + CountBusinessDays(n + 6, n + 7);
    assert CountBusinessDays(n + 4, n + 7) == (if IsBusinessDay(n + 4) then 1 else 0) + CountBusinessDays(n + 5, n + 7);
    assert CountBusinessDays(n + 3, n + 7) == (if IsBusinessDay(n + 3) then 1 else 0) + CountBusinessDays(n + 4, n + 7);
    assert CountBusinessDays(n + 2, n + 7) == (if IsBusinessDay(n + 2) then 1 else 0) + CountBusinessDays(n + 3, n + 7);
    assert CountBusinessDays(n + 1, n + 7) == (if IsBusinessDay(n + 1) then 1 else 0) + CountBusinessDays(n + 2, n + 7);
  }

  /** `k` whole weeks hold `5 * k` business days; in particular Monday to the next Monday
      counts 5. */
  lemma {:induction false} WholeWeeks(n: int, k: nat)
    ensures CountBusinessDays(n, n + 7 * k) == 5 * k
    decreases k
  {
    if k > 0 {
      WholeWeeks(n, k - 1);
      WeekHasFiveBusinessDays(n + 7 * (k - 1));
      CountSplit(n, n + 7 * (k - 1), n + 7 * k);
    }
  }

  /** Monday 1 April 2024 to Friday 5 April 2024 counts Monday to Thursday. */
  lemma {:induction false} FirstWeekOfApril2024()
    ensures CountBusinessDays(DayNumber(Civil(2024, 4, 1)), DayNumber(Civil(2024, 4, 5))) == 4
  {
    KnownDates();
    WeekHasFiveBusinessDays(19814);
    CountSplit(19814, 19818, 19821);
    assert CountBusinessDays(19818, 19821) == 1 by {
      WeekdayShift(19814, 4);
      WeekdayShift(19814, 5);
      WeekdayShift(19814, 6);
      assert CountBusinessDays(19820, 19821) == 0;
      assert CountBusinessDays(19819, 19821) == 0;
    }
  }
}

=== FILE: calendar.dfy ===
/** Proleptic Gregorian calendar dates as day numbers. A date is identified by the number of
    days since 1 January 1970, so the JavaScript `Date` operations the scripts use on
    midnight-aligned dates become integer operations: `<` compares day numbers, `setDate(getDate()
    + 1)` adds one, and `getDay()` is a residue modulo 7. */
module Calendar {

  /** A civil date; `month` is 1-based (January = 1). */
  datatype Civil = Civil(year: int, month: int, day: int)

  predicate IsLeapYear(y: int) {
    y % 4 == 0 && (y % 100 != 0 || y % 400 == 0)
  }

  function DaysInYear(y: int): nat {
    if IsLeapYear(y) then 366 else 365
  }

  function DaysInMonth(y: int, m: int): (n: nat)
    requires 1 <= m <= 12
    ensures 28 <= n <= 31
  {
    if m == 2 then (if IsLeapYear(y) then 29 else 28)
    else if m == 4 || m == 6 || m == 9 || m == 11 then 30
    else 31
  }

  /** A date that exists in the calendar. */
  predicate ValidCivil(c: Civil) {
    1 <= c.month <= 12 && 1 <= c.day <= DaysInMonth(c.year, c.month)
  }

  /** Days of year `y` before the first of month `m`, from the cumulative table. */
  function DaysBeforeMonth(y: int, m: int): nat
    requires 1 <= m <= 12
  {
    var table := [0, 31, 59, 90, 120, 151, 181, 212, 243, 273, 304, 334];
    table[m - 1] + (if m > 2 && IsLeapYear(y) then 1 else 0)
  }

  /** The cumulative table agrees with the month lengths: each month starts where the previous
      one ends, and December ends where the year does. */
  lemma DaysBeforeMonthStep(y: int, m: int)
    requires 1 <= m <= 12
    ensures m < 12 ==> DaysBeforeMonth(y, m + 1) == DaysBeforeMonth(y, m) + DaysInMonth(y, m)
    ensures m == 12 ==> DaysBeforeMonth(y, m) + DaysInMonth(y, m) == DaysInYear(y)
  {
  }

  /** Number of leap years in the proleptic count up to (not including) year `y`, up to a
      constant; only differences of it are used. */
  function LeapYearsBefore(y: int): int {
    (y - 1) / 4 - (y - 1) / 100 + (y - 1) / 400
  }

  /** Days from 1 January 1970 to 1 January of year `y` (negative before 1970). */
  function DaysBeforeYear(y: int): int {
    365 * (y - 1970) + LeapYearsBefore(y) - LeapYearsBefore(1970)
  }

  /** Day number of a civil date: 0 is 1 January 1970. A day beyond the month's end is counted
      on into the following months, as JavaScript's `Date` does with an overflowing day. */
  function DayNumber(c: Civil): (r: int)
    requires 1 <= c.month <= 12
    ensures ValidCivil(c) ==> DaysBeforeYear(c.year) <= r < DaysBeforeYear(c.year) + DaysInYear(c.year)
  {
    var inYear := DaysBeforeMonth(c.year, c.month) + c.day - 1;
    assert ValidCivil(c) ==> 0 <= inYear < DaysInYear(c.year) by {
      if ValidCivil(c) {
        DayOfYearBounds(c);
      }
    }
    DaysBeforeYear(c.year) + inYear
  }

  /** `getDay()`: 0 is Sunday, 6 is Saturday; 1 January 1970 was a Thursday. */
  function Weekday(n: int): (w: int)
    ensures 0 <= w < 7
  {
    (n + 4) % 7
  }

  lemma DivStep(y: int)
    ensures y / 4 - (y - 1) / 4 == if y % 4 == 0 then 1 else 0
    ensures y / 100 - (y - 1) / 100 == if y % 100 == 0 then 1 else 0
    ensures y / 400 - (y - 1) / 400 == if y % 400 == 0 then 1 else 0
  {
  }

  /** Consecutive new-year days are a year's length apart. */
  lemma {:induction false} DaysBeforeYearStep(y: int)
    ensures DaysBeforeYear(y + 1) == DaysBeforeYear(y) + DaysInYear(y)
  {
    DivStep(y);
  }

  /** New-year day numbers increase with the year, by at least 365 a year. */
  lemma {:induction false} DaysBeforeYearMonotone(a: int, b: int)
    requires a <= b
    ensures DaysBeforeYear(a) + 365 * (b - a) <= DaysBeforeYear(b)
    decreases b - a
  {
    if a < b {
      DaysBeforeYearMonotone(a, b - 1);
      DaysBeforeYearStep(b - 1);
    }
  }

  /** A day number `k` past the end of a month is day `k` of the following month, across the
      year end too: an overflowing day rolls over as JavaScript's `Date` does. */
  lemma RollOver(y: int, m: int, k: int)
    requires 1 <= m <= 12 && 1 <= k
    ensures m < 12 ==> DayNumber(Civil(y, m, DaysInMonth(y, m) + k)) == DayNumber(Civil(y, m + 1, k))
    ensures m == 12 ==> DayNumber(Civil(y, 12, 31 + k)) == DayNumber(Civil(y + 1, 1, k))
  {
    DaysBeforeMonthStep(y, m);
    if m == 12 {
      DaysBeforeYearStep(y);
    }
  }

  /** The calendar's own successor of a valid date. */
  function NextDay(c: Civil): (r: Civil)
    requires ValidCivil(c)
    ensures ValidCivil(r)
  {
    if c.day < DaysInMonth(c.year, c.month) then Civil(c.year, c.month, c.day + 1)
    else if c.month < 12 then Civil(c.year, c.month + 1, 1)
    else Civil(c.year + 1, 1, 1)
  }

  /** Advancing a date by one calendar day, across month and year ends, adds exactly one to its
      day number: the day-by-day walk of the business-day loop is a walk over consecutive
      integers. */
  lemma {:induction false} NextDayNumber(c: Civil)
    requires ValidCivil(c)
    ensures DayNumber(NextDay(c)) == DayNumber(c) + 1
  {
    DaysBeforeMonthStep(c.year, c.month);
    if c.day == DaysInMonth(c.year, c.month) && c.month == 12 {
      DaysBeforeYearStep(c.year);
    }
  }

  /** Calendar order: earlier year, or same year and earlier month, or same month and earlier
      day. */
  predicate CivilBefore(a: Civil, b: Civil) {
    || a.year < b.year
    || (a.year == b.year && a.month < b.month)
    || (a.year == b.year && a.month == b.month && a.day < b.day)
  }

  /** The position of a valid date within its year. */
  lemma {:induction false} DayOfYearBounds(c: Civil)
    requires ValidCivil(c)
    ensures 0 <= DaysBeforeMonth(c.year, c.month) + c.day - 1 < DaysInYear(c.year)
  {
    MonthStartsBefore(c.year, c.month, 12);
    DaysBeforeMonthStep(c.year, 12);
  }

  lemma {:induction false} MonthStartsBefore(y: int, m1: int, m2: int)
    requires 1 <= m1 <= m2 <= 12
    ensures DaysBeforeMonth(y, m1) + DaysInMonth(y, m1) <= DaysBeforeMonth(y, m2) || m1 == m2
    decreases m2 - m1
  {
    if m1 < m2 {
      DaysBeforeMonthStep(y, m1);
      if m1 + 1 < m2 {
        MonthStartsBefore(y, m1 + 1, m2);
      }
    }
  }

  /** Day numbers order valid dates exactly as the calendar does, so comparing two `Date`
      values at midnight is comparing the dates. */
  lemma {:induction false} DayNumberOrder(a: Civil, b: Civil)
    requires ValidCivil(a) && ValidCivil(b)
    ensures DayNumber(a) < DayNumber(b) <==> CivilBefore(a, b)
    ensures DayNumber(a) == DayNumber(b) <==> a == b
  {
    DayOfYearBounds(a);
    DayOfYearBounds(b);
    if a.year < b.year {
      DaysBeforeYearMonotone(a.year + 1, b.year);
      DaysBeforeYearStep(a.year);
    } else if b.year < a.year {
      DaysBeforeYearMonotone(b.year + 1, a.year);
      DaysBeforeYearStep(b.year);
    } else if a.month < b.month {
      MonthStartsBefore(a.year, a.month, b.month);
    } else if b.month < a.month {
      MonthStartsBefore(a.year, b.month, a.month);
    }
  }

  /** 1 January 1970 is day 0, and 1 April 2024 fell on a Monday. */
  lemma KnownDates()
    ensures DayNumber(Civil(1970, 1, 1)) == 0
    ensures DayNumber(Civil(2024, 4, 1)) == 19814 && Weekday(19814) == 1
  {
  }
}

=== FILE: cells.dfy ===
/** Worksheet cells as the SheetJS library holds them: a map from a 0-based (row, column)
    address to a cell value; an address outside the map is a missing cell. */
module Cells {

  datatype Value = Str(text: string) | Num(n: int) | Bool(b: bool)

  type Sheet = map<(int, int), Value>

  /** The falsy values a cell can hold: JavaScript's falsy values restricted to text, integers
      and booleans. */
  const FalsyValues: set<Value> := {Str(""), Num(0), Bool(false)}

  /** JavaScript truthiness of a cell value: the empty string, 0 and false are falsy. */
  predicate Truthy(v: Value)
    ensures Truthy(v) <==> v !in FalsyValues
  {
    match v
    case Str(t) => t != ""
    case Num(n) => n != 0
    case Bool(b) => b
  }

  /** The cell is missing, or the value it holds is falsy. */
  predicate IsEmptyCell(sheet: Sheet, address: (int, int))
    ensures IsEmptyCell(sheet, address) <==> address !in sheet || sheet[address] in FalsyValues
  {
    address !in sheet || !Truthy(sheet[address])
  }

  /** Writes `data[k]` at row `k` of `column` for `k` from `i` on, one row at a time, wherever that
      cell is empty; every other cell is left as it was. */
  function FillFrom(sheet: Sheet, column: int, data: seq<Value>, i: nat): (r: Sheet)
    requires i <= |data|
    ensures forall a :: a in r <==> a in sheet || (a.1 == column && i <= a.0 < |data|)
    ensures forall k :: i <= k < |data| ==>
      r[(k, column)] == if IsEmptyCell(sheet, (k, column)) then data[k] else sheet[(k, column)]
    ensures forall a :: a in sheet && !(a.1 == column && i <= a.0 < |data|) ==> r[a] == sheet[a]
    decreases |data| - i
  {
    if i == |data| then sheet
    else
      var written := if IsEmptyCell(sheet, (i, column)) then sheet[(i, column) := data[i]] else sheet;
      FillFrom(written, column, data, i + 1)
  }

  /** The write-back loop: the column `data` is laid over `column` starting at row 0, filling
      only missing or falsy cells. */
  function MergeColumn(sheet: Sheet, column: int, data: seq<Value>): (r: Sheet)
    ensures forall a :: a in r <==> a in sheet || (a.1 == column && 0 <= a.0 < |data|)
    ensures forall k :: 0 <= k < |data| ==>
      r[(k, column)] == if IsEmptyCell(sheet, (k, column)) then data[k] else sheet[(k, column)]
    ensures forall a :: a in sheet && !(a.1 == column && 0 <= a.0 < |data|) ==> r[a] == sheet[a]
  {
    FillFrom(sheet, column, data, 0)
  }

  /** Merging the same column twice gives the same sheet as merging it once: a cell the first
      merge left non-empty is kept, and one it left empty was written with the same value the
      second merge writes. */
  lemma MergeIdempotent(sheet: Sheet, column: int, data: seq<Value>)
    ensures MergeColumn(MergeColumn(sheet, column, data), column, data) == MergeColumn(sheet, column, data)
  {
    var once := MergeColumn(sheet, column, data);
    var twice := MergeColumn(once, column, data);
    assert twice.Keys == once.Keys;
    forall a | a in twice
      ensures twice[a] == once[a]
    {
      if a.1 == column && 0 <= a.0 < |data| {
        assert a == (a.0, column);
      }
    }
  }

  /** Merging never changes a non-empty cell, so a re-run cannot overwrite results that are
      already there. */
  lemma MergeKeepsFilledCells(sheet: Sheet, column: int, data: seq<Value>, a: (int, int))
    requires a in sheet && Truthy(sheet[a])
    ensures a in MergeColumn(sheet, column, data) && MergeColumn(sheet, column, data)[a] == sheet[a]
  {
    if a.1 == column && 0 <= a.0 < |data| {
      assert a == (a.0, column);
    }
  }
}

=== FILE: checktracking.dfy ===
/** check_tracking.js: for each row of postal-code pairs, the carrier's estimate page is read,
    the "Purolator Express" delivery date is turned into a count of business days from today,
    and the counts are written back into column G of the same worksheet. */
module CheckTracking {
  import opened Optional
  import opened JsText
  import opened Calendar
  import opened BusinessDays
  import opened DateText
  import opened Scan
  import opened Cells

  /** One input row, read by header name; a blank cell is `None` (`undefined`). */
  datatype PostalQuery = PostalQuery(
    origin: Option<string>,
    destination: Option<string>,
    deliveryTime: Option<string>,
    deliveryStandard: Option<string>)

  datatype SkipReason = MissingPostalCode | KnownShortDelivery | AlreadyHasStandard

  /** The row already has a delivery standard: the cell is present and not the empty text. */
  predicate HasStandard(q: PostalQuery) {
    q.deliveryStandard.Some? && q.deliveryStandard.value != ""
  }

  /** The checks made before any page is opened, in the script's order. */
  function SkipGate(q: PostalQuery): (r: Option<SkipReason>)
    ensures r == Some(MissingPostalCode) <==> q.origin.None? || q.destination.None?
    ensures r == Some(KnownShortDelivery) <==>
      q.origin.Some? && q.destination.Some? && q.deliveryTime == Some("1")
    ensures r == Some(AlreadyHasStandard) <==>
      q.origin.Some? && q.destination.Some? && q.deliveryTime != Some("1") && HasStandard(q)
    ensures r.None? <==>
      q.origin.Some? && q.destination.Some? && q.deliveryTime != Some("1") && !HasStandard(q)
  {
    if q.origin.None? || q.destination.None? then Some(MissingPostalCode)
    else if q.deliveryTime == Some("1") then Some(KnownShortDelivery)
    else if HasStandard(q) then Some(AlreadyHasStandard)
    else None
  }

  /** One row of the estimates table: the text of the first cell's span, and the inner text of
      the second cell's span; `None` when the span is absent. */
  datatype EstimateRow = EstimateRow(dateSpan: Option<string>, serviceSpan: Option<string>)

  /** What the browser yields for one row: a step that failed (each is caught and skips the
      row), or the estimates table and whether the final "modify" click succeeds. */
  datatype EstimatePage =
    | NavigationFailed
    | FormMissing
    | TypingFailed
    | EstimatesMissing
    | Estimates(rows: seq<EstimateRow>, modifyClickSucceeds: bool)

  type MonthSlot = i: int | 0 <= i < 12
  type DayOfMonth = d: int | 1 <= d <= 31 witness 1

  /** A reading of `new Date()`: `getFullYear()`, `getMonth()` (0-based) and `getDate()`. */
  datatype Clock = Clock(year: nat, monthIndex: MonthSlot, date: DayOfMonth)

  function ClockDate(today: Clock): Civil {
    Civil(today.year, today.monthIndex + 1, today.date)
  }

  /** What the outside world yields for one row: the page, and the clock read for the row. */
  datatype RowEnv = RowEnv(page: EstimatePage, today: Clock)

  const ExpressService := "Purolator Express"
  const EndOfDay := "End of day"

  /** The first line of the service cell, or "" when it has no span. */
  function ServiceName(row: EstimateRow): string {
    Split(row.serviceSpan.GetOr(""), '\n')[0]
  }

  predicate IsExpressRow(row: EstimateRow) {
    ServiceName(row) == ExpressService
  }

  /** The text from two characters past the first comma (skipping the comma and the space after
      it) up to the first "End of day", trimmed. */
  function DatePortion(dateString: string): (r: string)
    ensures |r| <= |dateString|
    ensures r == [] || (!IsJsSpace(r[0]) && !IsJsSpace(r[|r| - 1]))
  {
    Trim(Substring(dateString, IndexOf(dateString, ",") + 2, IndexOf(dateString, EndOfDay)))
  }

  /** The first comma of "<weekday>, <rest>" is the one after the weekday. */
  lemma CommaAfterWeekday(weekday: string, rest: string)
    requires ',' !in weekday
    ensures IndexOf(weekday + ", " + rest, ",") == |weekday|
  {
    var s := weekday + ", " + rest;
    var c := |weekday|;
    assert OccursAt(s, ",", c) by {
      assert s[c..c + 1] == [','];
    }
    forall i | 0 <= i < c
      ensures !OccursAt(s, ",", i)
    {
      assert s[i] == weekday[i];
    }
    IndexOfFirst(s, ",", c);
  }

  /** A date text "<weekday>, <portion>End of day<tail>" yields the trimmed portion, provided
      the weekday holds no comma and the marker does not start earlier. */
  lemma DatePortionOf(weekday: string, portion: string, tail: string)
    requires ',' !in weekday
    requires forall i :: 0 <= i < |weekday| + 2 + |portion| ==>
      !OccursAt(weekday + ", " + portion + EndOfDay + tail, EndOfDay, i)
    ensures DatePortion(weekday + ", " + portion + EndOfDay + tail) == Trim(portion)
  {
    var s := weekday + ", " + portion + EndOfDay + tail;
    var c := |weekday|;
    var e := c + 2 + |portion|;
    assert s == weekday + ", " + (portion + EndOfDay + tail);
    CommaAfterWeekday(weekday, portion + EndOfDay + tail);
    assert OccursAt(s, EndOfDay, e) by {
      assert s[e..e + |EndOfDay|] == EndOfDay;
    }
    IndexOfFirst(s, EndOfDay, e);
    assert s[c + 2..e] == portion;
  }

  /** The first space-separated word of the date portion: the estimate's month name. */
  function FirstDateWord(dateString: string): string {
    Split(DatePortion(dateString), ' ')[0]
  }

  /** The business days from today to the estimated date, or `None` when the script throws:
      an unknown month name makes `monthNames[-1]` undefined and `getAbbreviatedMonth` fails.
      The estimate takes today's year; a missing or non-numeric day gives `NaN`. */
  function EstimateDays(dateString: string, today: Clock): (r: Option<nat>)
    ensures r.None? <==> FirstDateWord(dateString) !in MonthNames
  {
    EstimateFromWords(Split(DatePortion(dateString), ' '), today)
  }

  /** The estimate from the words of the date portion. */
  function EstimateFromWords(tokens: seq<string>, today: Clock): (r: Option<nat>)
    requires |tokens| >= 1
    ensures r.None? <==> tokens[0] !in MonthNames
  {
    var idx := MonthIndex(tokens[0]);
    if idx == -1 then None
    else
      var day := if |tokens| >= 2 then ParseInt(tokens[1]) else None;
      var formattedToday := FormatDate(today.year, AbbreviatedMonth(MonthNames[today.monthIndex]), NumberText(Some(today.date)));
      var formattedComparison := FormatDate(today.year, AbbreviatedMonth(MonthNames[idx]), NumberText(day));
      Some(GetBusinessDays(formattedToday, formattedComparison))
  }

  /** What the estimate parse computes: with a full month name first, the business days from
      today to (today's year, that month, the day `parseInt` reads from the second word); 0 when
      that day is not a number from 1 to 31; a throw when the month name is unknown. */
  lemma {:induction false} EstimateDaysMeaning(dateString: string, today: Clock)
    ensures var tokens := Split(DatePortion(dateString), ' ');
      var idx := MonthIndex(tokens[0]);
      var day := if |tokens| >= 2 then ParseInt(tokens[1]) else None;
      && (EstimateDays(dateString, today).None? <==> tokens[0] !in MonthNames)
      && (idx >= 0 && day.Some? && 1 <= day.value <= 31 ==>
            EstimateDays(dateString, today) ==
            Some(CountBusinessDays(DayNumber(ClockDate(today)), DayNumber(Civil(today.year, idx + 1, day.value)))))
      && (idx >= 0 && !(day.Some? && 1 <= day.value <= 31) ==> EstimateDays(dateString, today) == Some(0))
  {
    EstimateFromWordsMeaning(Split(DatePortion(dateString), ' '), today);
  }

  lemma EstimateFromWordsMeaning(tokens: seq<string>, today: Clock)
    requires |tokens| >= 1
    ensures var idx := MonthIndex(tokens[0]);
      var day := if |tokens| >= 2 then ParseInt(tokens[1]) else None;
      && (EstimateFromWords(tokens, today).None? <==> tokens[0] !in MonthNames)
      && (idx >= 0 && day.Some? && 1 <= day.value <= 31 ==>
            EstimateFromWords(tokens, today) ==
            Some(CountBusinessDays(DayNumber(ClockDate(today)), DayNumber(Civil(today.year, idx + 1, day.value)))))
      && (idx >= 0 && !(day.Some? && 1 <= day.value <= 31) ==> EstimateFromWords(tokens, today) == Some(0))
  {
    var idx := MonthIndex(tokens[0]);
    if idx >= 0 {
      var day := if |tokens| >= 2 then ParseInt(tokens[1]) else None;
      EstimateOfMonth(today, idx, day);
    }
  }

  /** The estimate for a known month index `idx` and a parsed day, stated on the two texts the
      script builds. */
  lemma EstimateOfMonth(today: Clock, idx: MonthSlot, day: Option<int>)
    ensures var todayText := FormatDate(today.year, AbbreviatedMonth(MonthNames[today.monthIndex]), NumberText(Some(today.date)));
      var estimateText := FormatDate(today.year, AbbreviatedMonth(MonthNames[idx]), NumberText(day));
      && (day.Some? && 1 <= day.value <= 31 ==>
            GetBusinessDays(todayText, estimateText) ==
            CountBusinessDays(DayNumber(ClockDate(today)), DayNumber(Civil(today.year, idx + 1, day.value))))
      && (!(day.Some? && 1 <= day.value <= 31) ==> GetBusinessDays(todayText, estimateText) == 0)
  {
    var todayText := FormatDate(today.year, AbbreviatedMonth(MonthNames[today.monthIndex]), NumberText(Some(today.date)));
    var estimateText := FormatDate(today.year, AbbreviatedMonth(MonthNames[idx]), NumberText(day));
    ReadAbbreviatedDate(today.year, today.monthIndex, Some(today.date));
    ReadAbbreviatedDate(today.year, idx, day);
    if day.Some? && 1 <= day.value <= 31 {
      CountBetweenTexts(todayText, estimateText, ClockDate(today), Civil(today.year, idx + 1, day.value));
    }
  }

  /** Two texts read as dates give the business-day count between those dates. */
  lemma CountBetweenTexts(startText: string, endText: string, a: Civil, b: Civil)
    requires 1 <= a.month <= 12 && 1 <= b.month <= 12
    requires ReadDate(startText) == Some(a) && ReadDate(endText) == Some(b)
    ensures GetBusinessDays(startText, endText) == CountBusinessDays(DayNumber(a), DayNumber(b))
  {
  }

  /** The estimate takes today's year, so an estimated date in an earlier month than today's
      (a January delivery estimated in December) falls before today and counts 0. */
  lemma EarlierMonthCountsZero(tokens: seq<string>, today: Clock)
    requires |tokens| >= 2 && 0 <= MonthIndex(tokens[0]) < today.monthIndex
    requires ParseInt(tokens[1]).Some?
    requires ValidCivil(Civil(today.year, MonthIndex(tokens[0]) + 1, ParseInt(tokens[1]).value))
    requires ValidCivil(ClockDate(today))
    ensures EstimateFromWords(tokens, today) == Some(0)
  {
    EstimateFromWordsMeaning(tokens, today);
    DayNumberOrder(Civil(today.year, MonthIndex(tokens[0]) + 1, ParseInt(tokens[1]).value), ClockDate(today));
  }

  /** What became of one row. `Crashed` is an exception outside every `try`: it ends the whole
      run before anything is written. */
  datatype RowFailure = NavigationTimeout | FormTimeout | TypingError | EstimatesTimeout | NoExpressRow | DateCellMissing

  datatype RowOutcome =
    | Skipped(reason: SkipReason)
    | Failed(failure: RowFailure)
    | Computed(days: nat)
    | Crashed

  /** One pass of the loop body for an input row. */
  function ProcessRow(q: PostalQuery, env: RowEnv): (r: RowOutcome)
    ensures r.Skipped? <==> SkipGate(q).Some?
    ensures r.Skipped? ==> r.reason == SkipGate(q).value
  {
    match SkipGate(q)
    case Some(reason) => Skipped(reason)
    case None => PageOutcome(env.page, env.today)
  }

  /** The browser part of a row that passed the skip gate. */
  function PageOutcome(page: EstimatePage, today: Clock): (r: RowOutcome)
    ensures !r.Skipped?
    ensures page.NavigationFailed? <==> r == Failed(NavigationTimeout)
    ensures page.FormMissing? <==> r == Failed(FormTimeout)
    ensures page.TypingFailed? <==> r == Failed(TypingError)
    ensures page.EstimatesMissing? <==> r == Failed(EstimatesTimeout)
    ensures page.Estimates? ==>
      (r == Failed(NoExpressRow) <==> forall j :: 0 <= j < |page.rows| ==> !IsExpressRow(page.rows[j]))
    ensures r.Computed? ==> page.Estimates? && page.modifyClickSucceeds
  {
    match page
    case NavigationFailed => Failed(NavigationTimeout)
    case FormMissing => Failed(FormTimeout)
    case TypingFailed => Failed(TypingError)
    case EstimatesMissing => Failed(EstimatesTimeout)
    case Estimates(rows, modifyClickSucceeds) =>
      match LastWhere(rows, IsExpressRow)
      case None => Failed(NoExpressRow)
      case Some(i) => ExpressRowOutcome(rows[i], modifyClickSucceeds, today)
  }

  /** The row the scan stopped at: its date cell is read, parsed and counted; the final click
      on "modify" sits outside every `try`. */
  function ExpressRowOutcome(row: EstimateRow, modifyClickSucceeds: bool, today: Clock): (r: RowOutcome)
    ensures !r.Skipped?
    ensures r.Failed? <==> row.dateSpan.None?
    ensures r.Failed? ==> r.failure == DateCellMissing
    ensures r == Crashed <==>
      row.dateSpan.Some? && (!modifyClickSucceeds || FirstDateWord(Trim(row.dateSpan.value)) !in MonthNames)
    ensures r.Computed? ==> modifyClickSucceeds
  {
    match row.dateSpan
    case None => Failed(DateCellMissing)
    case Some(text) =>
      match EstimateDays(Trim(text), today)
      case None => Crashed
      case Some(days) => if modifyClickSucceeds then Computed(days) else Crashed
  }

  /** The count is taken from the latest "Purolator Express" row: the scan picks the
      highest-index such row, and a table with none skips the row. */
  lemma ProcessRowUsesLatestExpressRow(q: PostalQuery, env: RowEnv, i: nat)
    requires SkipGate(q).None? && env.page.Estimates?
    requires i < |env.page.rows| && IsExpressRow(env.page.rows[i])
    requires forall j :: i < j < |env.page.rows| ==> !IsExpressRow(env.page.rows[j])
    ensures ProcessRow(q, env) == ExpressRowOutcome(env.page.rows[i], env.page.modifyClickSucceeds, env.today)
  {
    LastWhereFinds(env.page.rows, IsExpressRow, i);
  }

  /** A table without a "Purolator Express" row skips the row. */
  lemma NoExpressRowSkips(q: PostalQuery, env: RowEnv)
    requires SkipGate(q).None? && env.page.Estimates?
    requires forall j :: 0 <= j < |env.page.rows| ==> !IsExpressRow(env.page.rows[j])
    ensures ProcessRow(q, env) == Failed(NoExpressRow)
  {
  }

  /** A skipped row never looks at the browser or the clock. */
  lemma SkippedRowIgnoresPage(q: PostalQuery, env1: RowEnv, env2: RowEnv)
    requires SkipGate(q).Some?
    ensures ProcessRow(q, env1) == ProcessRow(q, env2) == Skipped(SkipGate(q).value)
  {
  }

  /** How the run ended: an uncaught exception at 1-based row `row`, or all rows processed
      with `results` keyed by 1-based row (`dataObject`). */
  datatype RunResult = Aborted(row: nat) | Finished(results: map<nat, nat>)

  /** The main loop, for any per-row step. `amountPins` counts every row, skipped or not, so
      key `k` of the results is always input row `k`. */
  method CollectResults(queries: seq<PostalQuery>, envs: seq<RowEnv>, step: (PostalQuery, RowEnv) -> RowOutcome)
    returns (run: RunResult)
    requires |envs| == |queries|
    ensures run.Aborted? <==> exists k :: 0 <= k < |queries| && step(queries[k], envs[k]).Crashed?
    ensures run.Aborted? ==>
      && 1 <= run.row <= |queries|
      && step(queries[run.row - 1], envs[run.row - 1]).Crashed?
      && forall k :: 0 <= k < run.row - 1 ==> !step(queries[k], envs[k]).Crashed?
    ensures run.Finished? ==> forall key :: key in run.results <==>
      1 <= key <= |queries| && step(queries[key - 1], envs[key - 1]).Computed?
    ensures run.Finished? ==> forall key :: key in run.results ==>
      run.results[key] == step(queries[key - 1], envs[key - 1]).days
  {
    var results: map<nat, nat> := map[];
    var amountPins := 0;
    while amountPins < |queries|
      invariant 0 <= amountPins <= |queries|
      invariant forall k :: 0 <= k < amountPins ==> !step(queries[k], envs[k]).Crashed?
      invariant forall key :: key in results <==>
        1 <= key <= amountPins && step(queries[key - 1], envs[key - 1]).Computed?
      invariant forall key :: key in results ==> results[key] == step(queries[key - 1], envs[key - 1]).days
    {
      var outcome := step(queries[amountPins], envs[amountPins]);
      amountPins := amountPins + 1;
      match outcome {
        case Crashed =>
          return Aborted(amountPins);
        case Computed(days) =>
          results := results[amountPins := days];
        case _ =>
      }
    }
    return Finished(results);
  }

  /** The script's loop: every row goes through `ProcessRow` in input order. */
  method RunChecks(queries: seq<PostalQuery>, envs: seq<RowEnv>) returns (run: RunResult)
    requires |envs| == |queries|
    ensures run.Aborted? ==>
      && 1 <= run.row <= |queries|
      && ProcessRow(queries[run.row - 1], envs[run.row - 1]).Crashed?
      && forall k :: 0 <= k < run.row - 1 ==> !ProcessRow(queries[k], envs[k]).Crashed?
    ensures run.Finished? ==> forall k :: 0 <= k < |queries| ==> !ProcessRow(queries[k], envs[k]).Crashed?
    ensures run.Finished? ==> forall key :: key in run.results <==>
      1 <= key <= |queries| && ProcessRow(queries[key - 1], envs[key - 1]).Computed?
    ensures run.Finished? ==> forall key :: key in run.results ==>
      run.results[key] == ProcessRow(queries[key - 1], envs[key - 1]).days
  {
    run := CollectResults(queries, envs, ProcessRow);
  }

  const StandardHeader := "Delivery Standard"
  /** Column G, 0-based. */
  const StandardColumn := 6

  /** `dataToAdd`: the header, then for every input row `k` its count, with the empty text in
      place of a falsy one. A count of 0 is falsy and becomes the empty text, as does a row with
      no result. */
  method BuildStandardColumn(results: map<nat, nat>, total: nat) returns (column: seq<Value>)
    ensures |column| == total + 1
    ensures column[0] == Str(StandardHeader)
    ensures forall k :: 1 <= k <= total ==>
      column[k] == if k in results && results[k] != 0 then Num(results[k]) else Str("")
  {
    column := [Str(StandardHeader)];
    var rowNum := 2;
    while rowNum <= total + 1
      invariant 2 <= rowNum <= total + 2
      invariant |column| == rowNum - 1
      invariant column[0] == Str(StandardHeader)
      invariant forall k :: 1 <= k < rowNum - 1 ==>
        column[k] == if k in results && results[k] != 0 then Num(results[k]) else Str("")
    {
      var entry := if rowNum - 1 in results && results[rowNum - 1] != 0 then Num(results[rowNum - 1]) else Str("");
      column := column + [entry];
      rowNum := rowNum + 1;
    }
  }

  /** The end of the script: after a crash nothing is written; otherwise the column is merged
      into column G from row 0, only into cells that are missing or falsy. */
  method WriteBack(sheet: Sheet, total: nat, run: RunResult) returns (updated: Sheet)
    ensures run.Aborted? ==> updated == sheet
    ensures run.Finished? ==> forall a :: a in updated <==>
      a in sheet || (a.1 == StandardColumn && 0 <= a.0 <= total)
    ensures run.Finished? ==>
      updated[(0, StandardColumn)] ==
        if IsEmptyCell(sheet, (0, StandardColumn)) then Str(StandardHeader) else sheet[(0, StandardColumn)]
    ensures run.Finished? ==> forall k :: 1 <= k <= total ==>
      updated[(k, StandardColumn)] ==
        if !IsEmptyCell(sheet, (k, StandardColumn)) then sheet[(k, StandardColumn)]
        else if k in run.results && run.results[k] != 0 then Num(run.results[k])
        else Str("")
    ensures run.Finished? ==> forall a :: a in sheet && !(a.1 == StandardColumn && 0 <= a.0 <= total) ==>
      updated[a] == sheet[a]
  {
    match run {
      case Aborted(_) =>
        updated := sheet;
      case Finished(results) =>
        var column := BuildStandardColumn(results, total);
        updated := MergeColumn(sheet, StandardColumn, column);
    }
  }

  /** The whole script on a sheet whose data rows are `queries`: input row `k` (1-based) is
      sheet row `k`, so a count computed for it lands in column G of that same row, and only
      when that cell was empty. A crash anywhere leaves the sheet as it was. */
  method RunScript(sheet: Sheet, queries: seq<PostalQuery>, envs: seq<RowEnv>) returns (updated: Sheet)
    requires |envs| == |queries|
    ensures (exists k :: 0 <= k < |queries| && ProcessRow(queries[k], envs[k]).Crashed?) ==> updated == sheet
    ensures (forall k :: 0 <= k < |queries| ==> !ProcessRow(queries[k], envs[k]).Crashed?) ==>
      forall k :: 1 <= k <= |queries| && IsEmptyCell(sheet, (k, StandardColumn)) ==>
        (k, StandardColumn) in updated &&
        updated[(k, StandardColumn)] ==
          match ProcessRow(queries[k - 1], envs[k - 1])
          case Computed(days) => if days != 0 then Num(days) else Str("")
          case _ => Str("")
    ensures forall k :: 0 <= k <= |queries| && !IsEmptyCell(sheet, (k, StandardColumn)) ==>
      (k, StandardColumn) in updated && updated[(k, StandardColumn)] == sheet[(k, StandardColumn)]
    ensures forall a :: a in sheet && !(a.1 == StandardColumn && 0 <= a.0 <= |queries|) ==>
      a in updated && updated[a] == sheet[a]
  {
    var run := RunChecks(queries, envs);
    updated := WriteBack(sheet, |queries|, run);
  }
}

=== FILE: datetext.dfy ===
/** Month names, their abbreviations, and the date texts the scripts build and hand to
    JavaScript's `Date` constructor. */
module DateText {
  import opened Optional
  import opened JsText
  import opened Calendar
  import opened BusinessDays

  /** The scripts' `monthNames` table; index 0 is January. */
  const MonthNames: seq<string> := ["January", "February", "March", "April", "May", "June",
    "July", "August", "September", "October", "November", "December"]

  /** `getAbbreviatedMonth`: the first three characters of the name (fewer when it is shorter),
      followed by a period. */
  function AbbreviatedMonth(fullMonth: string): (r: string)
    ensures |fullMonth| >= 3 ==> |r| == 4 && r[..3] == fullMonth[..3]
    ensures |fullMonth| < 3 ==> r == fullMonth + "."
    ensures r[|r| - 1] == '.'
  {
    Substring(fullMonth, 0, 3) + "."
  }

  /** Every month name abbreviates to four characters: its first three and a period. */
  lemma AbbreviatedMonthNames(i: int)
    requires 0 <= i < 12
    ensures |AbbreviatedMonth(MonthNames[i])| == 4
    ensures AbbreviatedMonth(MonthNames[i]) == MonthNames[i][..3] + "."
  {
  }

  /** `monthNames.indexOf(name)`: the position of `name` in the table, or -1. */
  function MonthIndex(name: string): (r: int)
    ensures -1 <= r < |MonthNames|
    ensures r == -1 <==> name !in MonthNames
    ensures r >= 0 ==> MonthNames[r] == name
  {
    FirstIndex(MonthNames, name, 0)
  }

  function FirstIndex(names: seq<string>, name: string, k: nat): (r: int)
    requires k <= |names|
    ensures r == -1 || k <= r < |names|
    ensures r == -1 <==> name !in names[k..]
    ensures r >= 0 ==> names[r] == name
    decreases |names| - k
  {
    if k == |names| then -1
    else if names[k] == name then k
    else
      assert names[k..] == [names[k]] + names[k + 1..];
      FirstIndex(names, name, k + 1)
  }

  // ---------------------------------------------------------------------------------------
  // reading a date text the way the JavaScript engine does for "2024 Apr. 26" and
  // "2024 April 26"

  function LowerAscii(c: char): char {
    if 'A' <= c <= 'Z' then (c as int + 32) as char else c
  }

  function LowerKey(w: string): string
    requires |w| >= 3
  {
    [LowerAscii(w[0]), LowerAscii(w[1]), LowerAscii(w[2])]
  }

  /** The month (1 to 12) whose name starts with the three-letter `key`, if any. */
  function MonthOfKey(key: string, m: int): (r: Option<int>)
    requires 1 <= m <= 13
    ensures r.Some? ==> m <= r.value <= 12
    decreases 13 - m
  {
    if m == 13 then None
    else if LowerKey(MonthNames[m - 1]) == key then Some(m)
    else MonthOfKey(key, m + 1)
  }

  /** A month word: the engine matches its first three letters, ignoring case, against the
      month names, so "April", "Apr." and "APRIL" all name April. */
  function MonthOfWord(word: string): (r: Option<int>)
    ensures r.Some? ==> 1 <= r.value <= 12
    ensures |word| < 3 ==> r.None?
  {
    if |word| < 3 then None else MonthOfKey(LowerKey(word), 1)
  }

  /** `word` names month `m` when read by the engine. */
  predicate NamesMonth(word: string, m: int)
    requires 1 <= m <= 12
  {
    |word| >= 3 && LowerKey(word) == LowerKey(MonthNames[m - 1])
  }

  /** A word is read as month `m` exactly when its first three letters name `m`; the twelve
      three-letter keys are distinct, so a word names at most one month. */
  lemma {:induction false} MonthOfNamingWord(word: string, m: int)
    requires 1 <= m <= 12
    ensures NamesMonth(word, m) ==> MonthOfWord(word) == Some(m)
    ensures MonthOfWord(word) == Some(m) ==> NamesMonth(word, m)
  {
    if NamesMonth(word, m) {
      NamingWordIsRead(word, m);
    }
    if |word| >= 3 {
      FoundKeyNamesMonth(LowerKey(word), 1);
    }
  }

  /** The month the key search finds is one whose name starts with the key. */
  lemma {:induction false} FoundKeyNamesMonth(key: string, k: int)
    requires 1 <= k <= 13
    ensures MonthOfKey(key, k).Some? ==> LowerKey(MonthNames[MonthOfKey(key, k).value - 1]) == key
    decreases 13 - k
  {
    if k < 13 {
      var name := MonthNames[k - 1];
      if LowerKey(name) != key {
        FoundKeyNamesMonth(key, k + 1);
      }
    }
  }

  lemma {:induction false} NamingWordIsRead(word: string, m: int)
    requires 1 <= m <= 12 && NamesMonth(word, m)
    ensures MonthOfWord(word) == Some(m)
  {
    var key := LowerKey(word);
    if m == 1 { assert MonthOfKey(key, 1) == Some(1); }
    else if m == 2 { assert key == "feb"; }
    else if m == 3 { assert key == "mar"; }
    else if m == 4 { assert key == "apr"; }
    else if m == 5 { assert key == "may"; }
    else if m == 6 { assert key == "jun"; }
    else if m == 7 { assert key == "jul"; }
    else if m == 8 { assert key == "aug"; }
    else if m == 9 { assert key == "sep"; }
    else if m == 10 { assert key == "oct"; }
    else if m == 11 { assert key == "nov"; }
    else { assert key == "dec"; }
  }

  /** The month names and their abbreviations name their own month. */
  lemma NamesOwnMonth(m: int)
    requires 1 <= m <= 12
    ensures NamesMonth(MonthNames[m - 1], m)
    ensures NamesMonth(AbbreviatedMonth(MonthNames[m - 1]), m)
  {
  }

  /** `year + " " + month + " " + day`, as both scripts build the texts they pass to
      `new Date`. */
  function FormatDate(year: int, monthText: string, dayText: string): string {
    NumberText(Some(year)) + " " + monthText + " " + dayText
  }

  /** The engine's reading of a "year month day" text: exactly three space-separated words, a
      decimal year, a month word and a decimal day from 1 to 31. Anything else is an invalid
      date (`None`). A day past the month's end is accepted and rolls over (see
      `Calendar.DayNumber`). */
  function ReadDate(text: string): (r: Option<Civil>)
    ensures r.Some? ==> r.value.year >= 0 && 1 <= r.value.month <= 12 && 1 <= r.value.day <= 31
    ensures r.Some? ==> |Split(text, ' ')| == 3 && NamesMonth(Split(text, ' ')[1], r.value.month)
  {
    var parts := Split(text, ' ');
    if |parts| != 3 || |parts[0]| == 0 || !AllDigits(parts[0])
      || |parts[2]| == 0 || !AllDigits(parts[2]) then None
    else
      match MonthOfWord(parts[1])
      case None => None
      case Some(m) =>
        MonthOfNamingWord(parts[1], m);
        var d := DecimalValue(parts[2]);
        if 1 <= d <= 31 then Some(Civil(DecimalValue(parts[0]), m, d)) else None
  }

  /** A date text built from a year, a month word and a day is read back as that date. */
  lemma {:induction false} ReadFormattedDate(y: nat, word: string, m: int, d: int)
    requires 1 <= m <= 12 && 1 <= d <= 31
    requires NamesMonth(word, m) && ' ' !in word
    ensures ReadDate(FormatDate(y, word, NatToDecimal(d))) == Some(Civil(y, m, d))
  {
    var a := NatToDecimal(y);
    var c := NatToDecimal(d);
    NumberTextHasNoSpace(Some(y));
    NumberTextHasNoSpace(Some(d));
    var parts := [a, word, c];
    assert Join(parts, ' ') == FormatDate(y, word, c) by {
      assert Join(parts[1..], ' ') == word + " " + c by {
        assert parts[1..][1..] == [c];
      }
    }
    SplitJoin(parts, ' ');
    MonthOfNamingWord(word, m);
    DecimalRoundTrip(y);
    DecimalRoundTrip(d);
  }

  /** A text whose day is not a decimal number from 1 to 31 ("NaN", "-3", "0", "45") is an
      invalid date. */
  lemma {:induction false} UnreadableDay(y: nat, word: string, day: Option<int>)
    requires ' ' !in word
    requires day.None? || day.value < 1 || day.value > 31
    ensures ReadDate(FormatDate(y, word, NumberText(day))).None?
  {
    var a := NatToDecimal(y);
    var c := NumberText(day);
    NumberTextHasNoSpace(Some(y));
    NumberTextHasNoSpace(day);
    var parts := [a, word, c];
    assert Join(parts, ' ') == FormatDate(y, word, c) by {
      assert Join(parts[1..], ' ') == word + " " + c by {
        assert parts[1..][1..] == [c];
      }
    }
    SplitJoin(parts, ' ');
    if day.Some? && day.value >= 0 {
      DecimalRoundTrip(day.value);
    }
  }

  /** No abbreviated month name contains a space, so the date text keeps exactly three words. */
  lemma MonthWordsHaveNoSpace(i: int)
    requires 0 <= i < 12
    ensures ' ' !in AbbreviatedMonth(MonthNames[i])
  {
    AbbreviatedMonthNames(i);
    var a := AbbreviatedMonth(MonthNames[i]);
    if i == 0 { assert a == "Jan."; }
    else if i == 1 { assert a == "Feb."; }
    else if i == 2 { assert a == "Mar."; }
    else if i == 3 { assert a == "Apr."; }
    else if i == 4 { assert a == "May."; }
    else if i == 5 { assert a == "Jun."; }
    else if i == 6 { assert a == "Jul."; }
    else if i == 7 { assert a == "Aug."; }
    else if i == 8 { assert a == "Sep."; }
    else if i == 9 { assert a == "Oct."; }
    else if i == 10 { assert a == "Nov."; }
    else { assert a == "Dec."; }
  }

  /** The texts check_tracking.js builds, "<year> <Mon.> <day>", read back as the date when the
      day is a number from 1 to 31, and as an invalid date otherwise. */
  lemma ReadAbbreviatedDate(y: nat, i: int, day: Option<int>)
    requires 0 <= i < 12
    ensures day.Some? && 1 <= day.value <= 31 ==>
      ReadDate(FormatDate(y, AbbreviatedMonth(MonthNames[i]), NumberText(day))) == Some(Civil(y, i + 1, day.value))
    ensures !(day.Some? && 1 <= day.value <= 31) ==>
      ReadDate(FormatDate(y, AbbreviatedMonth(MonthNames[i]), NumberText(day))).None?
  {
    var word := AbbreviatedMonth(MonthNames[i]);
    MonthWordsHaveNoSpace(i);
    NamesOwnMonth(i + 1);
    if day.Some? && 1 <= day.value <= 31 {
      ReadFormattedDate(y, word, i + 1, day.value);
    } else {
      UnreadableDay(y, word, day);
    }
  }

  /** `getBusinessDays(startDate, endDate)` on texts: both are read as dates; if either is an
      invalid date every comparison with it is false and the loop never runs. */
  function GetBusinessDays(startText: string, endText: string): (r: nat)
    ensures ReadDate(startText).None? || ReadDate(endText).None? ==> r == 0
    ensures ReadDate(startText).Some? && ReadDate(endText).Some? ==>
      r == |BusinessDaySet(DayNumber(ReadDate(startText).value), DayNumber(ReadDate(endText).value))|
  {
    match (ReadDate(startText), ReadDate(endText))
    case (Some(a), Some(b)) =>
      CountIsSetSize(DayNumber(a), DayNumber(b));
      CountBusinessDays(DayNumber(a), DayNumber(b))
    case _ => 0
  }
}

=== FILE: jstext.dfy ===
/** The JavaScript string built-ins the two scripts rely on, with the language's semantics:
    `trim`, `indexOf`, `substring`, `split` on a one-character separator, `slice(0, -1)`,
    `parseInt` and number-to-string conversion. */
module JsText {
  import opened Optional

  /** WhiteSpace and LineTerminator code points, the characters `trim` and `parseInt` skip. */
  predicate IsJsSpace(c: char) {
    || c == ' ' || c == '\t' || c == '\n' || c == '\r' || c == '\U{000B}' || c == '\U{000C}'
    || c == '\U{00A0}' || c == '\U{1680}' || ('\U{2000}' <= c <= '\U{200A}')
    || c == '\U{2028}' || c == '\U{2029}' || c == '\U{202F}' || c == '\U{205F}'
    || c == '\U{3000}' || c == '\U{FEFF}'
  }

  predicate AllSpace(s: string) {
    forall i :: 0 <= i < |s| ==> IsJsSpace(s[i])
  }

  /** Leading white space removed (`trimStart`, also the first step of `parseInt`). */
  function TrimStart(s: string): (r: string)
    ensures |r| <= |s| && r == s[|s| - |r|..]
    ensures AllSpace(s[..|s| - |r|])
    ensures r == [] || !IsJsSpace(r[0])
    decreases |s|
  {
    if |s| > 0 && IsJsSpace(s[0]) then TrimStart(s[1..]) else s
  }

  /** Trailing white space removed. */
  function TrimEnd(s: string): (r: string)
    ensures |r| <= |s| && r == s[..|r|]
    ensures AllSpace(s[|r|..])
    ensures r == [] || !IsJsSpace(r[|r| - 1])
    decreases |s|
  {
    if |s| > 0 && IsJsSpace(s[|s| - 1]) then TrimEnd(s[..|s| - 1]) else s
  }

  /** `String.prototype.trim`. */
  function Trim(s: string): (r: string)
    ensures |r| <= |s|
    ensures r == [] || (!IsJsSpace(r[0]) && !IsJsSpace(r[|r| - 1]))
  {
    TrimEnd(TrimStart(s))
  }

  /** Trimming undoes padding: white space around a text with non-space ends is removed,
      and nothing else is. */
  lemma {:induction false} TrimPadded(before: string, t: string, after: string)
    requires AllSpace(before) && AllSpace(after)
    requires t == [] || (!IsJsSpace(t[0]) && !IsJsSpace(t[|t| - 1]))
    ensures Trim(before + t + after) == t
  {
    if t == [] {
      var s := before + after;
      assert before + t + after == s;
      assert AllSpace(s) by {
        forall i | 0 <= i < |s| ensures IsJsSpace(s[i]) {
          if i >= |before| {
            assert s[i] == after[i - |before|];
          }
        }
      }
      TrimStartPadded(s, []);
      assert s + [] == s;
    } else {
      assert before + t + after == before + (t + after);
      TrimStartPadded(before, t + after);
      TrimEndPadded(t, after);
    }
  }

  lemma {:induction false} TrimStartPadded(before: string, rest: string)
    requires AllSpace(before)
    requires rest == [] || !IsJsSpace(rest[0])
    ensures TrimStart(before + rest) == rest
    decreases |before|
  {
    if before != [] {
      assert (before + rest)[1..] == before[1..] + rest;
      TrimStartPadded(before[1..], rest);
    }
  }

  lemma {:induction false} TrimEndPadded(rest: string, after: string)
    requires AllSpace(after)
    requires rest == [] || !IsJsSpace(rest[|rest| - 1])
    ensures TrimEnd(rest + after) == rest
    decreases |after|
  {
    if after != [] {
      var s := rest + after;
      assert s[..|s| - 1] == rest + after[..|after| - 1];
      TrimEndPadded(rest, after[..|after| - 1]);
    }
  }

  // ---------------------------------------------------------------------------------------
  // indexOf and substring

  predicate OccursAt(s: string, pattern: string, i: int) {
    0 <= i && i + |pattern| <= |s| && s[i..i + |pattern|] == pattern
  }

  /** `s.indexOf(pattern)`: the first position where `pattern` occurs, or -1 when it occurs
      nowhere. */
  function IndexOf(s: string, pattern: string): (r: int)
    ensures -1 <= r <= |s|
    ensures r == -1 <==> forall i :: 0 <= i <= |s| ==> !OccursAt(s, pattern, i)
    ensures r >= 0 ==> OccursAt(s, pattern, r)
    ensures forall i :: 0 <= i < r ==> !OccursAt(s, pattern, i)
  {
    IndexFrom(s, pattern, 0)
  }

  function IndexFrom(s: string, pattern: string, k: nat): (r: int)
    requires k <= |s|
    ensures r == -1 || k <= r <= |s|
    ensures r == -1 <==> forall i :: k <= i <= |s| ==> !OccursAt(s, pattern, i)
    ensures r >= 0 ==> OccursAt(s, pattern, r)
    ensures forall i :: k <= i < r ==> !OccursAt(s, pattern, i)
    decreases |s| - k
  {
    if k + |pattern| > |s| then -1
    else if s[k..k + |pattern|] == pattern then assert OccursAt(s, pattern, k); k
    else IndexFrom(s, pattern, k + 1)
  }

  /** An occurrence with none before it is the one `indexOf` finds. */
  lemma IndexOfFirst(s: string, pattern: string, k: int)
    requires OccursAt(s, pattern, k)
    requires forall i :: 0 <= i < k ==> !OccursAt(s, pattern, i)
    ensures IndexOf(s, pattern) == k
  {
  }

  /** `s.substring(start, end)`: both arguments clamped to `[0, |s|]`, swapped when the first
      exceeds the second. */
  function Substring(s: string, start: int, end: int): (r: string)
    ensures |r| <= |s|
    ensures 0 <= start <= end <= |s| ==> r == s[start..end]
    ensures end < 0 <= start <= |s| ==> r == s[..start]
    ensures 0 <= end <= start <= |s| ==> r == s[end..start]
  {
    var a := Clamp(start, |s|);
    var b := Clamp(end, |s|);
    if a <= b then s[a..b] else s[b..a]
  }

  function Clamp(i: int, len: nat): (r: nat)
    ensures r <= len
  {
    if i < 0 then 0 else if i > len then len else i
  }

  /** `s.slice(0, -1)`: every character but the last. */
  function DropLast(s: string): (r: string)
    ensures |s| > 0 ==> s == r + [s[|s| - 1]]
    ensures |s| == 0 ==> r == []
  {
    if |s| == 0 then [] else s[..|s| - 1]
  }

  // ---------------------------------------------------------------------------------------
  // split on a single-character separator, and its inverse join

  /** `s.split(sep)` for a one-character separator: the maximal separator-free pieces,
      including empty ones; an empty string gives one empty piece. */
  function Split(s: string, sep: char): (parts: seq<string>)
    ensures |parts| >= 1
    ensures forall i :: 0 <= i < |parts| ==> sep !in parts[i]
    decreases |s|
  {
    if |s| == 0 then [[]]
    else
      var rest := Split(s[1..], sep);
      if s[0] == sep then [[]] + rest
      else [[s[0]] + rest[0]] + rest[1..]
  }

  /** `parts.join(sep)`. */
  function Join(parts: seq<string>, sep: char): string
    requires |parts| >= 1
    decreases |parts|
  {
    if |parts| == 1 then parts[0] else parts[0] + [sep] + Join(parts[1..], sep)
  }

  /** Joining the pieces of a split gives back the original text. */
  lemma {:induction false} JoinSplit(s: string, sep: char)
    ensures Join(Split(s, sep), sep) == s
    decreases |s|
  {
    if |s| > 0 {
      var rest := Split(s[1..], sep);
      JoinSplit(s[1..], sep);
      if s[0] == sep {
        assert Split(s, sep)[1..] == rest;
      } else if |rest| == 1 {
        assert s == [s[0]] + rest[0];
      } else {
        var parts := Split(s, sep);
        assert parts[1..] == rest[1..];
        assert Join(rest, sep) == rest[0] + [sep] + Join(rest[1..], sep);
        assert s == [s[0]] + s[1..];
      }
    }
  }

  /** Splitting a join of separator-free pieces gives back the pieces. */
  lemma {:induction false} SplitJoin(parts: seq<string>, sep: char)
    requires |parts| >= 1
    requires forall i :: 0 <= i < |parts| ==> sep !in parts[i]
    ensures Split(Join(parts, sep), sep) == parts
    decreases |parts|
  {
    if |parts| == 1 {
      SplitNoSeparator(parts[0], sep);
    } else {
      SplitJoin(parts[1..], sep);
      SplitPrefix(parts[0], Join(parts[1..], sep), sep);
      assert parts == [parts[0]] + parts[1..];
    }
  }

  /** A text without the separator is a single piece. */
  lemma {:induction false} SplitNoSeparator(s: string, sep: char)
    requires sep !in s
    ensures Split(s, sep) == [s]
    decreases |s|
  {
    if |s| > 0 {
      assert sep !in s[1..] by {
        forall i | 0 <= i < |s[1..]| ensures s[1..][i] != sep {
          assert s[1..][i] == s[i + 1];
        }
      }
      SplitNoSeparator(s[1..], sep);
      assert s == [s[0]] + s[1..];
    }
  }

  /** A separator-free head followed by the separator splits off as the first piece. */
  lemma {:induction false} SplitPrefix(head: string, tail: string, sep: char)
    requires sep !in head
    ensures Split(head + [sep] + tail, sep) == [head] + Split(tail, sep)
    decreases |head|
  {
    var s := head + [sep] + tail;
    if |head| == 0 {
      assert s[1..] == tail;
    } else {
      assert sep !in head[1..] by {
        forall i | 0 <= i < |head[1..]| ensures head[1..][i] != sep {
          assert head[1..][i] == head[i + 1];
        }
      }
      assert s[1..] == head[1..] + [sep] + tail;
      SplitPrefix(head[1..], tail, sep);
      assert head == [head[0]] + head[1..];
    }
  }

  /** The first three pieces of "<a><sep><b><sep><c><tail>", when the pieces hold no separator
      and the tail is empty or starts a new piece. */
  lemma SplitThreeWords(a: string, b: string, c: string, tail: string, sep: char)
    requires sep !in a && sep !in b && sep !in c
    requires tail == [] || tail[0] == sep
    ensures var parts := Split(a + [sep] + b + [sep] + c + tail, sep);
      |parts| >= 3 && parts[0] == a && parts[1] == b && parts[2] == c
  {
    assert a + [sep] + b + [sep] + c + tail == a + [sep] + (b + [sep] + (c + tail));
    SplitPrefix(a, b + [sep] + (c + tail), sep);
    SplitPrefix(b, c + tail, sep);
    if tail == [] {
      assert c + tail == c;
      SplitNoSeparator(c, sep);
    } else {
      assert c + tail == c + [sep] + tail[1..];
      SplitPrefix(c, tail[1..], sep);
    }
  }

  // ---------------------------------------------------------------------------------------
  // decimal numerals, parseInt and number-to-string

  predicate IsDigit(c: char) {
    '0' <= c <= '9'
  }

  predicate AllDigits(s: string) {
    forall i :: 0 <= i < |s| ==> IsDigit(s[i])
  }

  function DigitValue(c: char): nat
    requires IsDigit(c)
  {
    c as int - '0' as int
  }

  function DigitChar(d: nat): (c: char)
    requires d < 10
    ensures IsDigit(c) && DigitValue(c) == d
  {
    ('0' as int + d) as char
  }

  /** The value of a digit string, most significant digit first. */
  function DecimalValue(ds: string): nat
    requires AllDigits(ds)
    decreases |ds|
  {
    if |ds| == 0 then 0
    else DecimalValue(ds[..|ds| - 1]) * 10 + DigitValue(ds[|ds| - 1])
  }

  /** The shortest decimal numeral of `n`, as JavaScript prints a non-negative integer. */
  function NatToDecimal(n: nat): (r: string)
    ensures |r| >= 1 && AllDigits(r)
    decreases n
  {
    if n < 10 then [DigitChar(n)] else NatToDecimal(n / 10) + [DigitChar(n % 10)]
  }

  /** Reading back a printed numeral gives the number. */
  lemma {:induction false} DecimalRoundTrip(n: nat)
    ensures DecimalValue(NatToDecimal(n)) == n
    decreases n
  {
    if n >= 10 {
      DecimalRoundTrip(n / 10);
      var r := NatToDecimal(n);
      assert r[..|r| - 1] == NatToDecimal(n / 10);
    }
  }

  /** `String(x)` for an integer, or the text "NaN" for a failed parse. */
  function NumberText(x: Option<int>): (r: string)
    ensures x.Some? && x.value >= 0 ==> r == NatToDecimal(x.value)
    ensures x.Some? && x.value < 0 ==> r == "-" + NatToDecimal(-x.value)
    ensures x.None? ==> r == "NaN"
  {
    match x
    case None => "NaN"
    case Some(v) => if v < 0 then "-" + NatToDecimal(-v) else NatToDecimal(v)
  }

  /** Printed numbers contain no space, so they stay one word when a text is split. */
  lemma NumberTextHasNoSpace(x: Option<int>)
    ensures ' ' !in NumberText(x)
    ensures AllDigits(NumberText(x)) <==> x.Some? && x.value >= 0
  {
    var t := NumberText(x);
    if x.Some? && x.value < 0 {
      assert t == "-" + NatToDecimal(-x.value);
      assert !IsDigit(t[0]);
    } else if x.None? {
      assert !IsDigit(t[0]);
    }
  }

  /** The longest run of decimal digits at the front of `s`. */
  function DigitPrefix(s: string): (r: string)
    ensures |r| <= |s| && r == s[..|r|] && AllDigits(r)
    ensures |r| == |s| || !IsDigit(s[|r|])
    decreases |s|
  {
    if |s| > 0 && IsDigit(s[0]) then [s[0]] + DigitPrefix(s[1..]) else []
  }

  predicate IsHexDigit(c: char) {
    IsDigit(c) || 'a' <= c <= 'f' || 'A' <= c <= 'F'
  }

  function HexDigitValue(c: char): nat
    requires IsHexDigit(c)
  {
    if IsDigit(c) then DigitValue(c)
    else if 'a' <= c <= 'f' then c as int - 'a' as int + 10
    else c as int - 'A' as int + 10
  }

  /** The value of the longest hexadecimal-digit prefix of `s`, with its length. */
  function HexPrefix(s: string, acc: nat, len: nat): (r: (nat, nat))
    ensures r.1 >= len
    decreases |s|
  {
    if |s| > 0 && IsHexDigit(s[0]) then HexPrefix(s[1..], acc * 16 + HexDigitValue(s[0]), len + 1)
    else (acc, len)
  }

  /** The unsigned part of `parseInt`: a "0x"/"0X" prefix selects hexadecimal, otherwise the
      longest run of decimal digits is read; no digit at all gives `NaN` (here `None`). */
  function UnsignedValue(body: string): Option<nat> {
    if |body| >= 2 && body[0] == '0' && (body[1] == 'x' || body[1] == 'X') then
      var hex := HexPrefix(body[2..], 0, 0);
      if hex.1 == 0 then None else Some(hex.0)
    else
      var ds := DigitPrefix(body);
      if |ds| == 0 then None else Some(DecimalValue(ds))
  }

  /** `parseInt(s)` with no radix: leading white space skipped, then an optional sign, then
      the unsigned part. */
  function ParseInt(s: string): (r: Option<int>)
    ensures r.Some? ==> var t := TrimStart(s);
      |t| > 0 && (IsDigit(t[0]) || t[0] == '-' || t[0] == '+')
    ensures r.Some? && r.value < 0 ==> TrimStart(s)[0] == '-'
    ensures var t := TrimStart(s);
      |t| > 0 && IsDigit(t[0]) && !(t[0] == '0' && |t| >= 2 && (t[1] == 'x' || t[1] == 'X'))
      ==> r.Some? && r.value >= 0
  {
    var t := TrimStart(s);
    if |t| > 0 && t[0] == '-' then
      match UnsignedValue(t[1..])
      case None => None
      case Some(m) => Some(0 - m)
    else if |t| > 0 && t[0] == '+' then UnsignedValue(t[1..])
    else UnsignedValue(t)
  }

  /** The digit prefix of a numeral followed by a non-digit is the numeral. */
  lemma {:induction false} DigitPrefixOfNumeral(ds: string, rest: string)
    requires AllDigits(ds)
    requires rest == [] || !IsDigit(rest[0])
    ensures DigitPrefix(ds + rest) == ds
    decreases |ds|
  {
    if |ds| > 0 {
      assert (ds + rest)[1..] == ds[1..] + rest;
      DigitPrefixOfNumeral(ds[1..], rest);
      assert ds == [ds[0]] + ds[1..];
    } else {
      assert ds + rest == rest;
    }
  }

  /** The unsigned part of a numeral followed by neither a digit nor an "x" is its value. */
  lemma UnsignedNumeral(n: nat, rest: string)
    requires rest == [] || (!IsDigit(rest[0]) && rest[0] != 'x' && rest[0] != 'X')
    ensures UnsignedValue(NatToDecimal(n) + rest) == Some(n)
  {
    var ds := NatToDecimal(n);
    var s := ds + rest;
    if |s| >= 2 {
      if |ds| >= 2 {
        assert s[1] == ds[1] && IsDigit(s[1]);
      } else {
        assert s[1] == rest[0];
      }
    }
    DigitPrefixOfNumeral(ds, rest);
    DecimalRoundTrip(n);
  }

  /** `parseInt` reads back the numeral of `n` from the front of a text, whatever follows it,
      as long as the next character is not a digit and does not turn a leading 0 into a hex
      prefix. */
  lemma ParseIntOfNumeral(n: nat, rest: string)
    requires rest == [] || (!IsDigit(rest[0]) && rest[0] != 'x' && rest[0] != 'X')
    ensures ParseInt(NatToDecimal(n) + rest) == Some(n)
  {
    var ds := NatToDecimal(n);
    var s := ds + rest;
    assert s[0] == ds[0] && IsDigit(s[0]);
    assert !IsJsSpace(s[0]) && s[0] != '-' && s[0] != '+';
    assert TrimStart(s) == s;
    UnsignedNumeral(n, rest);
  }
}

=== FILE: mainscript.dfy ===
/** main.js: for every tracking PIN, read the pick-up date and the delivery date from the
    tracker page, count the business days between them, and write one row per tracked PIN
    under a four-column header. */
module MainScript {
  import opened Optional
  import opened JsText
  import opened Calendar
  import opened BusinessDays
  import opened DateText
  import opened Scan
  import opened Cells

  /** A row of the tracking history table: the texts of its first and last cells. */
  datatype EventRow = EventRow(firstCell: string, lastCell: string)

  /** The tracker page of one PIN. `DetailsMissing`: one of the two awaited fields did not
      appear in time. Otherwise the history rows, the text of the shipping-date field and the
      text of the delivery-date field. */
  datatype TrackingPage =
    | DetailsMissing
    | Details(events: seq<EventRow>, shippingField: string, deliveryField: string)

  const PickupEvent := "Picked up by Purolator"
  /** The year `formatDateString` writes into every date. */
  const ReportYear := 2024

  predicate IsPickup(row: EventRow) {
    Trim(row.lastCell) == PickupEvent
  }

  /** The date text of the latest pick-up row, trimmed, or `None` when no row is a pick-up. */
  function PickupDateText(events: seq<EventRow>): (r: Option<string>)
    ensures r.None? <==> forall j :: 0 <= j < |events| ==> !IsPickup(events[j])
    ensures r.Some? ==> exists i ::
      && 0 <= i < |events| && IsPickup(events[i])
      && (forall j :: i < j < |events| ==> !IsPickup(events[j]))
      && r.value == Trim(events[i].firstCell)
  {
    match LastWhere(events, IsPickup)
    case None => None
    case Some(i) => Some(Trim(events[i].firstCell))
  }

  /** `dateString` after the scan and the `!dateString` fallback: the pick-up date when there
      is one and it is not empty, the shipping field otherwise. */
  function ShippingDateText(events: seq<EventRow>, shippingField: string): (r: string)
    ensures PickupDateText(events).Some? && PickupDateText(events).value != "" ==>
      r == PickupDateText(events).value
    ensures PickupDateText(events).None? || PickupDateText(events) == Some("") ==> r == shippingField
  {
    match PickupDateText(events)
    case Some(text) => if text != "" then text else shippingField
    case None => shippingField
  }

  /** `formatDateString`: "2024 <word 1> <word 2 without its last character>". With fewer
      than three words `parts[2]` is undefined and `.slice` throws (`None`). */
  function FormatDateString(dateString: string): (r: Option<string>)
    ensures r.None? <==> |Split(dateString, ' ')| < 3
  {
    var parts := Split(dateString, ' ');
    if |parts| < 3 then None
    else Some(FormatDate(ReportYear, parts[1], DropLast(parts[2])))
  }

  /** A tracker date "<weekday> <month> <day><mark><tail>" (such as "Friday April 5, 2024")
      is rewritten as "2024 <month> <day>": the weekday and everything after the day's mark
      are dropped. */
  lemma {:induction false} TrackerDateFormats(weekday: string, word: string, d: nat, mark: char, tail: string)
    requires ' ' !in weekday && ' ' !in word && mark != ' '
    requires tail == [] || tail[0] == ' '
    ensures FormatDateString(weekday + " " + word + " " + NatToDecimal(d) + [mark] + tail)
      == Some(FormatDate(ReportYear, word, NatToDecimal(d)))
  {
    var day := NatToDecimal(d) + [mark];
    NumberTextHasNoSpace(Some(d));
    assert ' ' !in day;
    var s := weekday + " " + word + " " + NatToDecimal(d) + [mark] + tail;
    assert s == weekday + [' '] + word + [' '] + day + tail;
    SplitThreeWords(weekday, word, day, tail, ' ');
    assert DropLast(day) == NatToDecimal(d);
  }

  /** The rewritten tracker date is read back as that day of 2024 when the month word names
      a month and the day is from 1 to 31. */
  lemma TrackerDateReads(weekday: string, word: string, m: int, d: nat, mark: char, tail: string)
    requires ' ' !in weekday && ' ' !in word && mark != ' '
    requires tail == [] || tail[0] == ' '
    requires 1 <= m <= 12 && 1 <= d <= 31 && NamesMonth(word, m)
    ensures var r := FormatDateString(weekday + " " + word + " " + NatToDecimal(d) + [mark] + tail);
      r.Some? && ReadDate(r.value) == Some(Civil(ReportYear, m, d))
  {
    TrackerDateFormats(weekday, word, d, mark, tail);
    ReadFormattedDate(ReportYear, word, m, d);
  }

  /** One output row: `[pin, shippingDate, deliveryDate, businessDays]`. */
  datatype TrackedRow = TrackedRow(pin: string, shippingDate: string, deliveryDate: string, businessDays: nat)

  /** What became of one PIN. `NotReady`: the wait failed, the page is closed and the PIN adds
      nothing. `Crashed`: `formatDateString` threw outside every `try`, ending the whole run
      before anything is written. */
  datatype PinOutcome = NotReady | Tracked(row: TrackedRow) | Crashed

  /** The end of the loop body once both date texts are known: both are rewritten by
      `formatDateString` (the delivery date first), then counted. */
  function TrackDates(pin: string, shippingText: string, deliveryText: string): (r: PinOutcome)
    ensures !r.NotReady?
    ensures r.Crashed? <==> |Split(deliveryText, ' ')| < 3 || |Split(shippingText, ' ')| < 3
    ensures r.Tracked? ==>
      && r.row.pin == pin
      && FormatDateString(shippingText) == Some(r.row.shippingDate)
      && FormatDateString(deliveryText) == Some(r.row.deliveryDate)
      && r.row.businessDays == GetBusinessDays(r.row.shippingDate, r.row.deliveryDate)
  {
    match (FormatDateString(deliveryText), FormatDateString(shippingText))
    case (Some(deliveryDate), Some(shippingDate)) =>
      Tracked(TrackedRow(pin, shippingDate, deliveryDate, GetBusinessDays(shippingDate, deliveryDate)))
    case _ => Crashed
  }

  /** One pass of the loop body for a PIN. */
  function ProcessPin(pin: string, page: TrackingPage): (r: PinOutcome)
    ensures r.NotReady? <==> page.DetailsMissing?
  {
    match page
    case DetailsMissing => NotReady
    case Details(events, shippingField, deliveryField) =>
      TrackDates(pin, ShippingDateText(events, shippingField), deliveryField)
  }

  /** The shipping date text is the trimmed first cell of the latest pick-up row when that
      text is not empty. */
  lemma LatestPickupIsShippingDate(events: seq<EventRow>, shippingField: string, i: nat)
    requires i < |events| && IsPickup(events[i])
    requires forall j :: i < j < |events| ==> !IsPickup(events[j])
    requires Trim(events[i].firstCell) != ""
    ensures ShippingDateText(events, shippingField) == Trim(events[i].firstCell)
  {
    LastWhereFinds(events, IsPickup, i);
  }

  /** Two tracker dates give the business days between those two days of 2024. */
  lemma TrackDatesCounts(pin: string,
                         w1: string, word1: string, m1: int, d1: nat, mark1: char, tail1: string,
                         w2: string, word2: string, m2: int, d2: nat, mark2: char, tail2: string)
    requires ' ' !in w1 && ' ' !in word1 && mark1 != ' ' && (tail1 == [] || tail1[0] == ' ')
    requires ' ' !in w2 && ' ' !in word2 && mark2 != ' ' && (tail2 == [] || tail2[0] == ' ')
    requires 1 <= m1 <= 12 && 1 <= d1 <= 31 && NamesMonth(word1, m1)
    requires 1 <= m2 <= 12 && 1 <= d2 <= 31 && NamesMonth(word2, m2)
    ensures var r := TrackDates(pin, w1 + " " + word1 + " " + NatToDecimal(d1) + [mark1] + tail1,
                                w2 + " " + word2 + " " + NatToDecimal(d2) + [mark2] + tail2);
      && r.Tracked?
      && r.row.shippingDate == FormatDate(ReportYear, word1, NatToDecimal(d1))
      && r.row.deliveryDate == FormatDate(ReportYear, word2, NatToDecimal(d2))
      && r.row.businessDays ==
           CountBusinessDays(DayNumber(Civil(ReportYear, m1, d1)), DayNumber(Civil(ReportYear, m2, d2)))
  {
    TrackerDateFormats(w1, word1, d1, mark1, tail1);
    TrackerDateFormats(w2, word2, d2, mark2, tail2);
    ReadFormattedDate(ReportYear, word1, m1, d1);
    ReadFormattedDate(ReportYear, word2, m2, d2);
    CountIsSetSize(DayNumber(Civil(ReportYear, m1, d1)), DayNumber(Civil(ReportYear, m2, d2)));
  }

  /** The pick-up text of the example below, taken apart. */
  lemma ExamplePickupText()
    ensures "Monday April 1, 2024 09:14" == "Monday" + " " + "April" + " " + NatToDecimal(1) + [','] + " 2024 09:14"
    ensures FormatDate(ReportYear, "April", NatToDecimal(1)) == "2024 April 1"
  {
  }

  /** The delivery text of the example below, taken apart. */
  lemma ExampleDeliveryText()
    ensures "Friday April 5, 2024" == "Friday" + " " + "April" + " " + NatToDecimal(5) + [','] + " 2024"
    ensures FormatDate(ReportYear, "April", NatToDecimal(5)) == "2024 April 5"
  {
  }

  /** Picked up on Monday 1 April 2024 and delivered on Friday 5 April 2024: four business
      days. */
  lemma PickupToDeliveryExample()
    ensures TrackDates("335478120871", "Monday April 1, 2024 09:14", "Friday April 5, 2024") ==
      Tracked(TrackedRow("335478120871", "2024 April 1", "2024 April 5", 4))
  {
    ExamplePickupText();
    ExampleDeliveryText();
    NamesOwnMonth(4);
    TrackDatesCounts("335478120871",
      "Monday", "April", 4, 1, ',', " 2024 09:14",
      "Friday", "April", 4, 5, ',', " 2024");
    FirstWeekOfApril2024();
  }

  /** How the run ended: an uncaught exception at the 0-based PIN `pin`, or every PIN processed
      with `data` holding the rows pushed. */
  datatype TrackRun = Aborted(pin: nat) | Finished(data: seq<TrackedRow>)

  /** The rows of the outcomes of the first `n` PINs that were tracked, in input order. */
  ghost function TrackedRows(pins: seq<string>, pages: seq<TrackingPage>,
                             step: (string, TrackingPage) -> PinOutcome, n: nat): (rows: seq<TrackedRow>)
    requires n <= |pins| == |pages|
    ensures |rows| <= n
  {
    if n == 0 then []
    else
      match step(pins[n - 1], pages[n - 1])
      case Tracked(row) => TrackedRows(pins, pages, step, n - 1) + [row]
      case _ => TrackedRows(pins, pages, step, n - 1)
  }

  /** The input positions among the first `n` whose PIN was tracked, in increasing order. */
  ghost function TrackedPositions(pins: seq<string>, pages: seq<TrackingPage>,
                                  step: (string, TrackingPage) -> PinOutcome, n: nat): (ix: seq<nat>)
    requires n <= |pins| == |pages|
    ensures forall j :: 0 <= j < |ix| ==> ix[j] < n
    ensures forall j, l :: 0 <= j < l < |ix| ==> ix[j] < ix[l]
    ensures forall k :: 0 <= k < n ==> (k in ix <==> step(pins[k], pages[k]).Tracked?)
  {
    if n == 0 then []
    else if step(pins[n - 1], pages[n - 1]).Tracked? then TrackedPositions(pins, pages, step, n - 1) + [n - 1]
    else TrackedPositions(pins, pages, step, n - 1)
  }

  /** The pushed rows are exactly the rows of the tracked PINs, one each, in input order: the
      `j`-th row comes from the `j`-th tracked position. Hence never more rows than PINs. */
  lemma {:induction false} TrackedRowsInOrder(pins: seq<string>, pages: seq<TrackingPage>,
                                              step: (string, TrackingPage) -> PinOutcome, n: nat)
    requires n <= |pins| == |pages|
    ensures var rows := TrackedRows(pins, pages, step, n);
      var ix := TrackedPositions(pins, pages, step, n);
      && |rows| == |ix|
      && forall j :: 0 <= j < |rows| ==>
           step(pins[ix[j]], pages[ix[j]]).Tracked? && rows[j] == step(pins[ix[j]], pages[ix[j]]).row
  {
    if n > 0 {
      TrackedRowsInOrder(pins, pages, step, n - 1);
      var ix := TrackedPositions(pins, pages, step, n - 1);
      assert |ix| <= n - 1;
    }
  }

  /** The main loop, for any per-PIN step: tracked rows are pushed in order, a PIN that was not
      ready adds nothing, and the first crash ends the run. */
  method TrackPins(pins: seq<string>, pages: seq<TrackingPage>, step: (string, TrackingPage) -> PinOutcome)
    returns (run: TrackRun)
    requires |pages| == |pins|
    ensures run.Aborted? <==> exists k :: 0 <= k < |pins| && step(pins[k], pages[k]).Crashed?
    ensures run.Aborted? ==>
      && run.pin < |pins|
      && step(pins[run.pin], pages[run.pin]).Crashed?
      && forall k :: 0 <= k < run.pin ==> !step(pins[k], pages[k]).Crashed?
    ensures run.Finished? ==> run.data == TrackedRows(pins, pages, step, |pins|)
    ensures run.Finished? ==> |run.data| <= |pins|
  {
    var data: seq<TrackedRow> := [];
    var amountPins := 0;
    while amountPins < |pins|
      invariant 0 <= amountPins <= |pins|
      invariant forall k :: 0 <= k < amountPins ==> !step(pins[k], pages[k]).Crashed?
      invariant data == TrackedRows(pins, pages, step, amountPins)
    {
      var outcome := step(pins[amountPins], pages[amountPins]);
      match outcome {
        case Crashed =>
          return Aborted(amountPins);
        case Tracked(row) =>
          data := data + [row];
        case NotReady =>
      }
      amountPins := amountPins + 1;
    }
    return Finished(data);
  }

  /** The script's loop: every PIN goes through `ProcessPin` in input order. */
  method RunTracker(pins: seq<string>, pages: seq<TrackingPage>) returns (run: TrackRun)
    requires |pages| == |pins|
    ensures run.Aborted? ==>
      && run.pin < |pins|
      && ProcessPin(pins[run.pin], pages[run.pin]).Crashed?
      && forall k :: 0 <= k < run.pin ==> !ProcessPin(pins[k], pages[k]).Crashed?
    ensures run.Finished? ==> forall k :: 0 <= k < |pins| ==> !ProcessPin(pins[k], pages[k]).Crashed?
    ensures run.Finished? ==> run.data == TrackedRows(pins, pages, ProcessPin, |pins|)
    ensures run.Finished? ==> |run.data| <= |pins|
  {
    run := TrackPins(pins, pages, ProcessPin);
  }

  const Header: seq<string> := ["PIN", "Shipping Date", "Delivery Date", "Business Days"]

  /** `aoa_to_sheet`: row `r`, column `c` of the array of arrays becomes cell `(r, c)`. */
  function SheetOfRows(rows: seq<seq<Value>>): (sheet: Sheet)
    ensures forall a :: a in sheet <==> 0 <= a.0 < |rows| && 0 <= a.1 < |rows[a.0]|
    ensures forall a :: a in sheet ==> sheet[a] == rows[a.0][a.1]
  {
    map r, c | 0 <= r < |rows| && 0 <= c < |rows[r]| :: (r, c) := rows[r][c]
  }

  function RowValues(row: TrackedRow): seq<Value> {
    [Str(row.pin), Str(row.shippingDate), Str(row.deliveryDate), Num(row.businessDays)]
  }

  /** The output sheet: the four-column header in row 0, then data row `k` in sheet row
      `k + 1`; nothing else. */
  function OutputRows(data: seq<TrackedRow>): (rows: seq<seq<Value>>)
    ensures |rows| == |data| + 1
    ensures forall k :: 0 <= k < |rows| ==> |rows[k]| == 4
    ensures rows[0] == [Str(Header[0]), Str(Header[1]), Str(Header[2]), Str(Header[3])]
    ensures forall k :: 0 <= k < |data| ==> rows[k + 1] == RowValues(data[k])
  {
    if |data| == 0 then [[Str(Header[0]), Str(Header[1]), Str(Header[2]), Str(Header[3])]]
    else OutputRows(data[..|data| - 1]) + [RowValues(data[|data| - 1])]
  }

  function OutputSheet(data: seq<TrackedRow>): Sheet {
    SheetOfRows(OutputRows(data))
  }

  /** The output sheet holds the header row and one row per data row, four cells wide, and
      nothing else. */
  lemma OutputSheetShape(data: seq<TrackedRow>)
    ensures forall a :: a in OutputSheet(data) <==> 0 <= a.0 <= |data| && 0 <= a.1 < 4
  {
  }

  /** Row 0 of the output sheet is the header. */
  lemma OutputSheetHeader(data: seq<TrackedRow>, c: int)
    requires 0 <= c < 4
    ensures (0, c) in OutputSheet(data) && OutputSheet(data)[(0, c)] == Str(Header[c])
  {
  }

  /** Sheet row `k + 1` holds data row `k`: the PIN, both dates and the count. */
  lemma OutputSheetRow(data: seq<TrackedRow>, k: int)
    requires 0 <= k < |data|
    ensures var sheet := OutputSheet(data);
      && (k + 1, 0) in sheet && sheet[(k + 1, 0)] == Str(data[k].pin)
      && (k + 1, 1) in sheet && sheet[(k + 1, 1)] == Str(data[k].shippingDate)
      && (k + 1, 2) in sheet && sheet[(k + 1, 2)] == Str(data[k].deliveryDate)
      && (k + 1, 3) in sheet && sheet[(k + 1, 3)] == Num(data[k].businessDays)
  {
    var rows := OutputRows(data);
    assert rows[k + 1] == RowValues(data[k]);
  }

  /** The sheet the script hands to `writeFile`: none after a crash, otherwise the output sheet,
      with at most one row per PIN below the header. Whether the asynchronous write completes
      is outside the model. */
  function WrittenSheet(pins: seq<string>, run: TrackRun): (r: Option<Sheet>)
    requires run.Finished? ==> |run.data| <= |pins|
    ensures r.None? <==> run.Aborted?
    ensures r.Some? ==> forall a :: a in r.value ==> 0 <= a.0 <= |pins| && 0 <= a.1 < 4
  {
    match run
    case Aborted(_) => None
    case Finished(data) =>
      OutputSheetShape(data);
      Some(OutputSheet(data))
  }

  /** The whole script: the loop, then the output sheet handed to `writeFile` unless a PIN
      crashed the run. */
  method TrackAndWrite(pins: seq<string>, pages: seq<TrackingPage>) returns (written: Option<Sheet>)
    requires |pages| == |pins|
    ensures written.None? <==> exists k :: 0 <= k < |pins| && ProcessPin(pins[k], pages[k]).Crashed?
    ensures written.Some? ==> forall a :: a in written.value ==> 0 <= a.0 <= |pins| && 0 <= a.1 < 4
    ensures written.Some? ==> written.value == OutputSheet(TrackedRows(pins, pages, ProcessPin, |pins|))
  {
    var run := RunTracker(pins, pages);
    written := WrittenSheet(pins, run);
  }
}

=== FILE: optional.dfy ===
/** A value that may be absent: JavaScript's `undefined` (or `NaN` for numbers) on one side,
    a present value on the other. */
module Optional {

  datatype Option<+T> = None | Some(value: T) {

    /** The value if present, otherwise `default`. */
    function GetOr(default: T): T {
      match this
      case Some(v) => v
      case None => default
    }
  }
}

=== FILE: scan.dfy ===
/** The reverse row scans of both scripts: rows are visited from the last to the first, and the
    scan stops at the first one that matches. */
module Scan {
  import opened Optional

  /** The index the scan stops at: the highest index whose element satisfies `matches`, or
      `None` when the scan runs off the front. */
  function LastWhere<T>(xs: seq<T>, matches: T -> bool): (r: Option<nat>)
    ensures r.Some? ==> r.value < |xs| && matches(xs[r.value])
    ensures r.Some? ==> forall j :: r.value < j < |xs| ==> !matches(xs[j])
    ensures r.None? <==> forall j :: 0 <= j < |xs| ==> !matches(xs[j])
    decreases |xs|
  {
    if |xs| == 0 then None
    else if matches(xs[|xs| - 1]) then Some(|xs| - 1)
    else
      var r := LastWhere(xs[..|xs| - 1], matches);
      assert forall j :: 0 <= j < |xs| - 1 ==> xs[..|xs| - 1][j] == xs[j];
      r
  }

  /** A matching element with no match after it is the one the scan stops at. */
  lemma LastWhereFinds<T>(xs: seq<T>, matches: T -> bool, i: nat)
    requires i < |xs| && matches(xs[i])
    requires forall j :: i < j < |xs| ==> !matches(xs[j])
    ensures LastWhere(xs, matches) == Some(i)
  {
  }
}
